=== FILE: README.md ===
# TlRef core in Dafny

TlRef turns Telegram's TL schema and the scraped API documentation into a
static reference site. It lists every constructor and method with Go usage
snippets for the Gogram client library. This project models the pure core of
that generator and proves properties of it:

- **Identifier mangling** (`GoName`): `to_go_name` turns a TL name such as
  `messages.sendMessage` into the Go identifier `MessagesSendMessage`. Its
  tokenising regular expression is written out as a left-to-right scanner.
  A ghost predicate characterises `re.findall`, and the scanner is proved to
  be its only answer.
- **Page paths** (`Paths`):
  - where each page is written and how a page refers back to the site root;
  - where a type reference in a signature links to (`linkify_type`).
- **Type map and `Obj` disambiguation** (`Grouping`, `TypeMap`):
  - constructors are grouped by result type;
  - a constructor takes the `Obj` suffix when its Go name is also a type's.
- **Example values** (`Examples`): `get_type_example` and
  `get_expanded_struct`, with the two curated tables passed in as maps. The
  shipped tables are given as constants, and `Examples.InputPeerShown`
  evaluates one argument against them.
- **Gogram snippets** (`Gogram`): `generate_gogram_example`, modelled as the
  sequence of lines that the page text joins with newlines.
- **Schema reading** (`Schema`):
  - the line loop of `parse_schema_file`, over a sequence of lines;
  - the users/bots classifier of `fetch_documentation`.

`Strings` holds the Python string operations the core relies on, such as
`split`, `strip`, `in`, `index`, `capitalize` and `count`. Each one is
specified by what it computes. `Maybe` is the option type. `Entries` holds the
scraped records: a name, fields, and a result type that may be missing.

Every file is given to Dafny together; the modules import one another.

Where each source function is defined. The rows below name, in their third
column, the definition their lemma is about.

- `to_go_name`: `GoName.ToGoName`, with its scanner `GoName.Tokens`.
- `get_output_path`: `Paths.OutputPath`; the type pages: `Paths.TypePagePath`.
- `get_relative_root`: `Paths.RelativeRoot`.
- `linkify_type`: `Paths.MakeLink`, its link target `Paths.Href`, its marker
  `Paths.MarkerOf` (and the prefix as written, `Paths.PrefixAsWritten`).
- The type map loop: `TypeMap.BuildTypeMap` over `TypeMap.Filed`;
  `go_types_set`: `TypeMap.GoTypes`; the `Obj` rule: `TypeMap.DisplayName`.
- `get_type_example`: `Examples.TypeExample`; `get_expanded_struct`:
  `Examples.ExpandedStruct`.
- `generate_gogram_example`: `Gogram.GogramLines` (its text
  `Gogram.GogramExample`), built from `Gogram.ParamsOf`, `Gogram.Kept`,
  `Gogram.ParamsLines` and `Gogram.MethodLines`.
- `parse_schema_file`: `Schema.ParseSchema`, with the line classifier
  `Schema.Classify`, the name pattern `Schema.DeclName` and the reference
  fold `Schema.Parse`.
- `can_be_used_by`: `Schema.CanBeUsedBy`.

## Model

| member | source | states |
|---|---|---|
| GoName.MatchLen | build_html.py:146 | A match of the three-way alternation at a position consists of letters and digits only. Every lower-case letter or digit starts one, and so does a capital with no underscore after it. |
| GoName.AcronymLen | build_html.py:146 | The second alternative matches the longest run of capitals after which the lookahead `(?=[A-Z][a-z]\|\d\|\W\|$)` holds. Every longer run of capitals fails the lookahead. |
| GoName.Tokens | build_html.py:146 | The scanner's spans satisfy the `findall` characterisation: each match is leftmost after the previous one, and nothing matches after the last. |
| GoName.FindAllUnique | build_html.py:146 | `findall` has exactly one answer, so the scanner's result is the regex's result. |
| GoName.FindAllCovers | build_html.py:146 | Where every position starts a match, the matches tile the rest of the part. |
| GoName.ToGoName | build_html.py:133-151 | The mangled name contains neither `.` nor `_`. |
| GoName.GoNameSpellsName | build_html.py:141-151 | For names made of letters, digits, `.` and `_`, the mangled name is the name with its separators removed, up to letter case. No character is lost, added or reordered. |
| GoName.CamelTokens | build_html.py:146 | A run of camel-case words is tokenised exactly at its capitals. |
| GoName.CamelName | build_html.py:143-151 | An undotted camel-case name mangles to its words, each capitalised (`inputMediaEmpty` gives `InputMediaEmpty`). |
| GoName.NamespacedName | build_html.py:141-151 | `ns.item` mangles to the mangling of `ns` followed by that of `item`. |
| GoName.PascalName | build_html.py:143-151 | A camel-case name whose words are all capitalised is its own Go name (`InputPeerUser` stays `InputPeerUser`). |
| GoName.NamespacedCamelName | build_html.py:141-151 | A namespaced camel-case name mangles to both halves' capitalised words (`messages.sendMessage` gives `MessagesSendMessage`). |
| TypeSyntax.FlagsPrefixLen | build_html.py:97 | The stripped `flags.N?` prefix is a marker, and it is the only marker prefix of the type. |
| TypeSyntax.StripMarker | build_html.py:97 | Stripping `flags.` + digits + `?` + base gives back the base. |
| TypeSyntax.VectorInner | build_html.py:103-105 | `re.match('Vector<(.+)>')` succeeds exactly when some non-empty inner text is closed by `>`. The group is the longest one (greedy), and `Vector<` + group + `>` is a prefix of the type. |
| TypeSyntax.MarkedIsOptional | build_html.py:198 | A type that carries a marker passes the optional test (`flags.` in it and `?` in it). |
| Paths.PathRoundTrip | build_html.py:71-80 | Of `Paths.OutputPath`: the name can be read back from its page path, for every name without `/`; the split is at the last dot. |
| Paths.PathsDistinct | build_html.py:71-80 | Of `Paths.OutputPath`: distinct names without `/` get distinct pages. |
| Paths.PageRoot | build_html.py:474-479 | Of `Paths.RelativeRoot` of `Paths.OutputPath`: the page of an undotted name links back to the root through `..`, a dotted one through `../..`. |
| Paths.RootClimbsDepth | build_html.py:474-479 | Of `Paths.RelativeRoot`: split at `/`, the relative root is one `..` per `/` in the path. |
| Paths.DotDotChain | build_html.py:479 | Of `Paths.RelativeRoot`: `'/'.join(['..'] * d)` is `..` groups separated by single slashes, `3d-1` characters long. |
| Paths.HrefIsConstructorPage | build_html.py:112-121 | Of `Paths.Href`: a link to a non-key type lands on the page `get_output_path` writes for that constructor. |
| Paths.HrefIsTypePage | build_html.py:110-111 | Of `Paths.Href`: a link to a type-map key lands on the page the generator writes for that type, `types/<key>.html`, as in `TypePagePath`. |
| Paths.PrimitiveUnlinked | build_html.py:93-100 | Of `Paths.MakeLink`: primitives and names starting with `flags` are shown as written, without a link. |
| Paths.VectorDropsMarker | build_html.py:103-107 | Of `Paths.MakeLink`: a vector reference is the vector of its element's reference. A marker in front of a vector is not shown. |
| Paths.NamedLinked | build_html.py:109-128 | Of `Paths.MakeLink`: any other reference is one link to `Href`, labelled with the bare type and with the marker in front. The text shown is the type as written. |
| Paths.ShownType | build_html.py:95-128 | Of `Paths.MakeLink`: a reference whose nested vectors carry no marker shows exactly the type as written. |
| Paths.MarkerOf | build_html.py:124-126 | The visible prefix followed by the stripped type is the type as written. |
| Paths.PrefixAsWrittenCutsMarker | build_html.py:124-126 | Of `Paths.PrefixAsWritten`: taking the prefix up to the first occurrence of the stripped name cuts `flags.0?s` at `flag`, so marker and name no longer spell the type. |
| Paths.PrefixAsWrittenAgrees | build_html.py:124-126 | Of `Paths.PrefixAsWritten`: when the stripped name first occurs after the marker, the prefix as written is the marker. |
| Grouping.GroupAll | build_html.py:1061-1069 | The grouping loop lists every key once, in the order first met. Each key holds exactly the elements filed under it, in order. |
| Grouping.GroupCounts | build_html.py:1062-1069 | Each element is filed under its own key as often as it occurs, and under no other key. |
| Grouping.KeysMembers | build_html.py:1067-1068 | A key is listed exactly when some element is filed under it. |
| Grouping.KeysDistinct | build_html.py:1067-1068 | No key is listed twice. |
| Grouping.GroupNonEmpty | build_html.py:1067-1069 | Every listed key's group is non-empty. |
| TypeMap.BuildTypeMap | build_html.py:1061-1069 | The type map's keys are the stripped result types of eligible constructors, in order first met. Each key holds those constructors in declaration order. |
| TypeMap.TypeMapContents | build_html.py:1061-1069 | Of `TypeMap.Filed` and `Grouping.GroupBy`: the keys are distinct, and are exactly the keys of constructors with a non-empty, non-`Vector` result type. Each group is non-empty and holds each such constructor as often as it is declared. |
| TypeMap.PaddedVectorFiled | build_html.py:1064-1066 | Of `TypeMap.Filed`: the `Vector` test runs before stripping, so ` Vector<T>` is filed, under `Vector<T>`. |
| TypeMap.BlankResultFiled | build_html.py:1063-1066 | Of `TypeMap.Filed`: a result type of spaces alone passes the test and is filed under the empty key. |
| TypeMap.ObjSuffix | build_html.py:311-321 | Of `TypeMap.DisplayName`: with `go_types_set` computed from the type map, a constructor's display name is its Go name plus `Obj` exactly when that Go name is a type's Go name. The detail page's title uses the same rule, and the search index agrees with it. |
| TypeMap.MethodsUnsuffixed | build_html.py:313 | Of `TypeMap.DisplayName`: methods never get the suffix. |
| TypeMap.FallbackByBaseName | build_html.py:317-321 | Of `TypeMap.DisplayName`: the base-name fallback suffixes `ns.item` when `item` is a key, though the main rule would not. |
| TypeMap.NamespaceLengthens | build_html.py:141-151 | Of `GoName.ToGoName`: a non-empty alphanumeric namespace makes the mangled name differ from its item's. |
| Examples.ExpansionTruthy | build_html.py:285-293 | Of `Examples.ExpandedStruct`: a name expands exactly when it has a table entry, and the expansion is then a non-empty `&tg.<Go name>{` literal. So the callers' truthiness test `if expanded:` succeeds exactly when the model's match finds `Some`. |
| Examples.StringWins | build_html.py:197-202 | Of `Examples.TypeExample`: any type containing `string` after stripping yields `"Hello, World!"`, vectors included. |
| Examples.FlaggedIntIs42 | build_html.py:197-204 | Of `Examples.TypeExample`: `flags.N?int` yields `42`. |
| Examples.MarkerIgnored | build_html.py:197 | Of `Examples.TypeExample`: a conditional field gets the example of its type without the marker. |
| Examples.UnexpandedIgnoresStructs | build_html.py:225-255 | Of `Examples.TypeExample`: without expansion, the struct table is never consulted. |
| Examples.NilExactly | build_html.py:201-259 | Of `Examples.TypeExample`: `nil` is the example exactly for types that are no primitive, no vector and do not start with a capital. |
| Examples.CuratedInterface | build_html.py:233-249 | Of `Examples.TypeExample`: a capitalised, non-vector type curated in the interface table shows its implementation: the expanded literal when expansion is on and the implementation has initialisers, otherwise `&tg.<implementation>{}`, followed by `// or other <type> implementations` when a comment is asked for. |
| Examples.VectorOfNamed | build_html.py:215-230 | Of `Examples.TypeExample`: a vector whose element type is not one of the six plain ones starts with `[]tg.<element Go name>{`, curated or not, expanded or not. |
| Examples.InputPeerShown | build_html.py:237-245 | Of `Examples.TypeExample` on the shipped tables: with expansion on and no comment, an `InputPeer` argument is `&tg.InputPeerUser{UserID: int64(777000)}`. |
| Examples.UncuratedNamed | build_html.py:233-257 | Of `Examples.TypeExample`: a capitalised type in neither table gives a bare literal of its Go name. |
| Gogram.KeptCounts | build_html.py:328-348 | Of `Gogram.Kept`: flags fields and `#` fields become no parameter. Every other field is required or optional, never both, as often as it is declared. |
| Gogram.KeptAppend | build_html.py:328-348 | Of `Gogram.Kept`: the field filter works field by field, so it distributes over concatenation. |
| Gogram.CollectParams | build_html.py:328-348 | The field loop yields the required and the optional parameters, each in declaration order, with expanded comment-free examples. |
| Gogram.ParamsFromFields | build_html.py:337-343 | Of `Gogram.ParamsOf`: each parameter is its own field's Go name and example, and that field is in the entry. |
| Gogram.ParamsLinesShape | build_html.py:370-383 | Of `Gogram.ParamsLines`: the listing shows the first required parameters in order, with a marker exactly when more exist. There is an optional section exactly when optional parameters exist, with its own marker when more exist. The listing is empty only when both lists are, and at most both limits plus four lines long. The constructor literal builds the same listing with limits 6 and 4. |
| Gogram.RequiredLineNoMarker | build_html.py:371-375 | Of `Gogram.ParamsLines`: a parameter line is never mistaken for an elision marker. |
| Gogram.ParamsFormListsSomething | build_html.py:356-383 | Of `Gogram.ParamsLines`: the `Params` form is chosen only when it has something to list. |
| Gogram.PositionalForm | build_html.py:356-367 | Of `Gogram.MethodLines`: the positional form is chosen exactly for at most five required and no optional parameters. Its arguments are the required values in order. |
| Gogram.PositionalExactly | build_html.py:323-367 | Of `Gogram.GogramLines`: on a method page, the positional form is used exactly when the method has at most five required and no optional fields. Its arguments are the expanded examples of those fields, in order. |
| Gogram.MethodLineCount | build_html.py:358-393 | Of `Gogram.GogramLines`: a method snippet has 6 lines in positional form, and between 8 and 23 lines otherwise. |
| Gogram.ConstructorShape | build_html.py:396-440 | Of `Gogram.GogramLines`: a constructor literal is written `{}` exactly when it has no parameter. The snippet has 2 to 17 lines. |
| Gogram.FlagsFieldIgnored | build_html.py:333-334 | Of `Gogram.GogramLines`: inserting a flags field anywhere leaves the snippet unchanged. |
| Gogram.ExampleLines | build_html.py:358-440 | Of `Gogram.GogramExample`: splitting the snippet text at newlines gives back its lines, when no line contains a newline. |
| Schema.DeclNameExactly | tl_doc_scraper.py:93-95 | Of `Schema.DeclName`: the scanner yields a name exactly when the line starts with an identifier, optionally one `.identifier`, then `#` and a hex digit. The name is that prefix. |
| Schema.ClassifyDeclaration | tl_doc_scraper.py:76-95 | Of `Schema.Classify`: a raw line counts as a declaration of `name` exactly when its stripped text declares it. |
| Schema.ParseSchema | tl_doc_scraper.py:64-101 | The loop returns the names that the line-by-line scan collects. |
| Schema.ScanLines | tl_doc_scraper.py:75-99 | The loop over the classified lines reaches the same reader state as the line-by-line definition: every line is read once, in file order. |
| Schema.ScanSection | tl_doc_scraper.py:94-99 | Of `Schema.Scan`: inside a section, every declared name is appended to that section's list, in order, and the section does not change. |
| Schema.TwoSections | tl_doc_scraper.py:72-99 | Of `Schema.Parse`: for type declarations, then the functions marker, then function declarations, the constructors are the names before the marker and the methods the names after it. |
| Schema.ParseCounts | tl_doc_scraper.py:93-99 | Of `Schema.Parse`: one name per declaration line, so no more names than lines. |
| Schema.NamesWellFormed | tl_doc_scraper.py:93-99 | Of `Schema.Parse`: every returned name is a qualified identifier that some line declares. |
| Schema.SkippedLineIgnored | tl_doc_scraper.py:76-80 | Of `Schema.Parse`: blank and comment lines can be inserted anywhere without changing the result. |
| Schema.SectionIsLastMarker | tl_doc_scraper.py:83-88 | Of `Schema.Scan`: after a scan, the reader is in the functions section exactly when the last marker opened it, or when it started there and met no types marker. |
| Schema.ParseSection | tl_doc_scraper.py:72-88 | Of `Schema.Parse`: the reader starts among the types, and ends among the functions exactly when some functions marker is followed by no types marker. |
| Schema.CanBeUsedBy | tl_doc_scraper.py:195-202 | `users` is listed exactly when the page says both or only users can call the method. `bots` is listed exactly when it says both, or, not saying only users, says only bots or that bots can. Nothing else is listed, and nothing twice. |

## Left out

- HTML generation: the page generators, `clean_description`,
  `highlight_go_code` and `html.escape`. A type reference is modelled as a
  `Link` tree (text, vector, anchor), not as escaped HTML.
- I/O: reading the JSON documentation, writing pages, opening the schema
  file. The schema is given as its sequence of lines.
- `fetch_documentation` apart from `can_be_used_by`, because it relies on
  HTTP and HTML scraping. The page text is a parameter. `scrape_all` is
  left out because it exists for its thread pool.
- `@lru_cache` memoisation, which does not change any result.
- Character classes are ASCII. Python's `\d`, `\W`, `isupper` and
  `capitalize` also accept other Unicode letters and digits. `strip` uses
  Python's full whitespace set.
- GoName.ToGoName: concrete manglings of particular names are not stated
  as lemmas. `CamelName` and `NamespacedCamelName` cover every camel-case
  name, including the two documented examples.
- Gogram.ExampleLines: stated only when no line of the snippet contains a
  newline. That TL identifiers and the entries of the two shipped tables
  contain none is read off the tables, not proved: the tables are given as
  constants, but a character-by-character proof over their literals is not
  part of the model.
- Schema.ParseSchema: Python's file iteration, which splits at newlines, is
  not modelled; the loop receives lines.
- The breadcrumb of a dotted constructor's detail page, which appends `Obj`
  when the mangled last segment alone is a type's Go name. It can disagree
  with the page title that `TypeMap.DisplayName` models: `messages.chats`
  is titled `MessagesChatsObj` but its breadcrumb shows `Chats` unless some
  type mangles to `Chats`. The breadcrumb is HTML and is not modelled.
- Mangling is not idempotent: `a_b` gives `AB`, which gives `Ab`.

## Findings

| source | as written | input that shows it | evidently intended | confidence | as-written member | corrected member |
|---|---|---|---|---|---|---|
| build_html.py:124-126 | The visible prefix of a marked type is `type_name[:type_name.index(clean_name)]`, cut at the first occurrence of the stripped name. | `flags.0?s`, whose stripped name `s` first occurs inside `flags`: the prefix is `flag` and the page shows `flags`. | The prefix is the stripped `flags.N?` marker, so prefix and name spell the type (`flags.0?` + `s`). | not executed | Paths.PrefixAsWrittenCutsMarker | Paths.MarkerOf |

`Paths.PrefixAsWritten` is the source's computation. `Paths.MakeLink` uses
the corrected `Paths.MarkerOf`. `Paths.PrefixAsWrittenAgrees` shows the two
agree whenever the stripped name first occurs after the marker.

Two notes on where the model departs from what the source's own comments
say:

- The code comment at build_html.py:318 calls the `Obj` fallback
  (`base_name in type_map`) "less accurate". It is modelled as written, and
  it is dead code. Method pages are built without Go type names, but the fallback
  sits under the constructor test, so methods never reach it. Constructor
  pages always receive the Go type names, computed from the type map's keys,
  so a non-empty type map always comes with a non-empty set of names and
  the first test decides. `TypeMap.ObjSuffix` proves this for Go type names
  computed from the keys.
- A simplification, not a disagreement: the href choice tests the type map
  twice. In the undotted case the second test can no longer succeed, so it
  is folded into the first.

=== FILE: entries.dfy ===
/**
 * The scraped documentation records the generator consumes: one entry per
 * constructor or method, with its parameter fields and its result type.
 */
module Entries {

  import opened Maybe

  /** One parameter of a constructor or method: its name and TL type. */
  datatype Field = Field(name: string, typ: string)

  /**
   * A constructor or method. `resultType` is `None` when the scraped record
   * has no `result_type` key at all, so that each `.get` default the
   * generator supplies is reproduced; an absent and an empty result type
   * end up with the same page text.
   */
  datatype Entry = Entry(name: string, fields: seq<Field>, resultType: Option<string>)

  /** `item.get('result_type', default)`. */
  function ResultTypeOr(e: Entry, default: string): string
  {
    match e.resultType
    case Some(r) => r
    case None => default
  }
}

=== FILE: examples.dfy ===
/**
 * Example Go values for TL types, as shown in the Gogram usage snippets:
 * a literal for each primitive, a slice literal for a vector, a struct
 * literal for a named type, `nil` for anything else. Two curated tables
 * steer the choice: an example implementation per interface type, and
 * field initialisers per struct.
 */
module Examples {

  import opened Maybe
  import opened Strings
  import opened TypeSyntax
  import opened GoName

  /** The curated tables: interface type to example constructor, and constructor to its field initialisers. */
  datatype Tables = Tables(interfaces: map<string, string>, structs: map<string, string>)

  /** The interface table as the generator ships it. */
  const InterfaceExamples: map<string, string> := map[
    "InputMedia" := "InputMediaPhoto",
    "InputPeer" := "InputPeerUser",
    "InputUser" := "InputUserSelf",
    "InputChannel" := "InputChannel",
    "InputDocument" := "InputDocument",
    "InputPhoto" := "InputPhoto",
    "InputFile" := "InputFile",
    "InputGeoPoint" := "InputGeoPoint",
    "InputChatPhoto" := "InputChatUploadedPhoto",
    "InputNotifyPeer" := "InputNotifyPeer",
    "InputPrivacyKey" := "InputPrivacyKeyStatusTimestamp",
    "InputPrivacyRule" := "InputPrivacyValueAllowAll",
    "ReplyMarkup" := "ReplyKeyboardMarkup",
    "InputBotInlineMessage" := "InputBotInlineMessageText",
    "InputBotInlineResult" := "InputBotInlineResult",
    "InputStickeredMedia" := "InputStickeredMediaPhoto",
    "InputWebFileLocation" := "InputWebFileLocation",
    "InputSecureFile" := "InputSecureFileUploaded",
    "InputEncryptedFile" := "InputEncryptedFileUploaded",
    "MessageEntity" := "MessageEntityBold",
    "KeyboardButton" := "KeyboardButton",
    "Update" := "UpdateNewMessage",
    "Chat" := "Chat",
    "User" := "User",
    "Message" := "Message",
    "InputReplyTo" := "InputReplyToMessage",
    "InputQuickReplyShortcut" := "InputQuickReplyShortcut",
    "SuggestedPost" := "SuggestedPost"
  ]

  /** The struct table as the generator ships it. */
  const StructExpansions: map<string, string> := map[
    "InputPeerUser" := "UserID: int64(777000)",
    "InputPeerChat" := "ChatID: int64(1234567890)",
    "InputPeerChannel" := "ChannelID: int64(1234567890), AccessHash: int64(5678901234567890)",
    "InputUserSelf" := "",
    "InputUser" := "UserID: int64(777000), AccessHash: int64(5678901234567890)",
    "InputChannel" := "ChannelID: int64(1234567890), AccessHash: int64(5678901234567890)",
    "InputPhoto" := "ID: int64(5678901234567890), AccessHash: int64(1234567890123456), FileReference: []byte{0x01, 0x02}",
    "InputDocument" := "ID: int64(5678901234567890), AccessHash: int64(1234567890123456), FileReference: []byte{0x01, 0x02}",
    "InputMediaPhoto" := "ID: &tg.InputPhoto{ID: int64(5678901234567890), AccessHash: int64(1234567890123456), FileReference: []byte{0x01}}",
    "InputMediaDocument" := "ID: &tg.InputDocument{ID: int64(5678901234567890), AccessHash: int64(1234567890123456), FileReference: []byte{0x01}}",
    "InputMediaUploadedPhoto" := "File: &tg.InputFile{ID: int64(7654321098765), Parts: 3, Name: \"photo.jpg\"}",
    "InputMediaUploadedDocument" := "File: &tg.InputFile{ID: int64(7654321098765), Parts: 5, Name: \"document.pdf\"}, MimeType: \"application/pdf\", Attributes: []tg.DocumentAttribute{&tg.DocumentAttributeFilename{FileName: \"document.pdf\"}}",
    "InputFile" := "ID: int64(7654321098765), Parts: 3, Name: \"upload.dat\"",
    "InputGeoPoint" := "Lat: 40.7128, Long: -74.0060",
    "InputReplyToMessage" := "ReplyToMsgID: 42",
    "MessageEntityBold" := "Offset: 0, Length: 11",
    "ReplyKeyboardMarkup" := "Rows: []tg.KeyboardButtonRow{{Buttons: []tg.KeyboardButton{&tg.KeyboardButton{Text: \"Click Me\"}}}}"
  ]

  /**
   * `get_expanded_struct`: a struct literal with the curated initialisers
   * of `typeName`, or nothing when the table has no entry for it. (The
   * source writes the empty-initialiser case separately; both cases give
   * the same text.)
   */
  function ExpandedStruct(typeName: string, structs: map<string, string>): Option<string>
  {
    if typeName in structs then
      var fields := structs[typeName];
      var goName := ToGoName(typeName);
      if fields != "" then Some("&tg." + goName + "{" + fields + "}")
      else Some("&tg." + goName + "{}")
    else
      None
  }

  /**
   * The callers test the expansion for truthiness (`if expanded:`), the
   * model matches on `Some`: the two agree because a table entry always
   * expands, and always to a non-empty literal of the struct named by its
   * Go name, while any other name gives nothing.
   */
  lemma ExpansionTruthy(typeName: string, structs: map<string, string>)
    ensures ExpandedStruct(typeName, structs).Some? <==> typeName in structs
    ensures ExpandedStruct(typeName, structs).Some? ==> |ExpandedStruct(typeName, structs).value| > 0
    ensures ExpandedStruct(typeName, structs).Some? ==>
              StartsWith(ExpandedStruct(typeName, structs).value, "&tg." + ToGoName(typeName) + "{")
  {
  }

  /** The element types a vector example spells as a Go slice of that very name. */
  predicate IsPlainElement(t: string) {
    t in {"int", "long", "string", "bytes", "int32", "int64"}
  }

  /** The example of a vector type with element type `inner`. */
  function VectorExample(inner: string, expand: bool, tables: Tables): string
  {
    var innerGo := ToGoName(inner);
    if IsPlainElement(inner) then "[]" + inner + "{}"
    else if inner in tables.interfaces then
      var impl := tables.interfaces[inner];
      match (if expand then ExpandedStruct(impl, tables.structs) else None)
      case Some(expanded) => "[]tg." + innerGo + "{" + expanded + "}"
      case None => "[]tg." + innerGo + "{&tg." + ToGoName(impl) + "{}}"
    else
      "[]tg." + innerGo + "{&tg." + innerGo + "{}}"
  }

  /** The example of a type whose name starts with a capital letter. */
  function NamedExample(clean: string, withComment: bool, expand: bool, tables: Tables): string
  {
    if clean in tables.interfaces then
      var impl := tables.interfaces[clean];
      match (if expand then ExpandedStruct(impl, tables.structs) else None)
      case Some(expanded) => expanded
      case None =>
        if withComment then "&tg." + ToGoName(impl) + "{}  // or other " + clean + " implementations"
        else "&tg." + ToGoName(impl) + "{}"
    else
      match (if expand then ExpandedStruct(clean, tables.structs) else None)
      case Some(expanded) => expanded
      case None => "&tg." + ToGoName(clean) + "{}"
  }

  /**
   * `get_type_example`: the marker is stripped, then the tests run in the
   * source's order, the substring `string` first.
   */
  function TypeExample(fieldType: string, withComment: bool, expand: bool, tables: Tables): string
  {
    var clean := StripFlags(fieldType);
    if Contains(clean, "string") then "\"Hello, World!\""
    else if clean == "int" || clean == "int32" then "42"
    else if clean == "long" || clean == "int64" then "int64(1234567890)"
    else if clean == "double" then "3.14159"
    else if clean == "bytes" then "[]byte{0x01, 0x02, 0x03}"
    else if clean == "Bool" || clean == "true" then "true"
    else
      match VectorInner(clean)
      case Some(inner) => VectorExample(inner, expand, tables)
      case None =>
        if |clean| > 0 && IsUpper(clean[0]) then NamedExample(clean, withComment, expand, tables)
        else "nil"
  }

  /** Any type mentioning `string`, even a vector of strings or a flagged one, is shown as a string. */
  lemma StringWins(fieldType: string, withComment: bool, expand: bool, tables: Tables)
    requires Contains(StripFlags(fieldType), "string")
    ensures TypeExample(fieldType, withComment, expand, tables) == "\"Hello, World!\""
  {
  }

  /** A conditional field gets the example of its type without the marker. */
  lemma MarkerIgnored(digits: string, base: string, withComment: bool, expand: bool, tables: Tables)
    requires |digits| > 0 && forall k | 0 <= k < |digits| :: IsDigit(digits[k])
    requires FlagsPrefixLen(base) == 0
    ensures TypeExample("flags." + digits + "?" + base, withComment, expand, tables) ==
            TypeExample(base, withComment, expand, tables)
  {
    StripMarker(digits, base);
    assert StripFlags(base) == base;
  }

  /** The integer primitives, flagged or not, give `42`. */
  lemma FlaggedIntIs42(digits: string, withComment: bool, expand: bool, tables: Tables)
    requires |digits| > 0 && forall k | 0 <= k < |digits| :: IsDigit(digits[k])
    ensures TypeExample("flags." + digits + "?int", withComment, expand, tables) == "42"
  {
    StripMarker(digits, "int");
    assert "flags." + digits + "?" + "int" == "flags." + digits + "?int";
    assert !Contains("int", "string");
  }

  /** Without expansion the struct table is never consulted. */
  lemma UnexpandedIgnoresStructs(fieldType: string, withComment: bool, interfaces: map<string, string>,
                                 s1: map<string, string>, s2: map<string, string>)
    ensures TypeExample(fieldType, withComment, false, Tables(interfaces, s1)) ==
            TypeExample(fieldType, withComment, false, Tables(interfaces, s2))
  {
  }

  /**
   * `nil` is the example exactly of the types that are no primitive, no
   * vector and do not start with a capital letter.
   */
  lemma NilExactly(fieldType: string, withComment: bool, expand: bool, tables: Tables)
    ensures var clean := StripFlags(fieldType);
            TypeExample(fieldType, withComment, expand, tables) == "nil" <==>
              && !Contains(clean, "string")
              && clean !in {"int", "int32", "long", "int64", "double", "bytes", "Bool", "true"}
              && VectorInner(clean).None?
              && !(|clean| > 0 && IsUpper(clean[0]))
  {
    var clean := StripFlags(fieldType);
    var r := TypeExample(fieldType, withComment, expand, tables);
    if Contains(clean, "string") || clean in {"int", "int32", "long", "int64", "double", "bytes", "Bool", "true"} {
      assert |r| != 3;
    } else {
      match VectorInner(clean)
      case Some(inner) =>
        VectorNotNil(inner, expand, tables);
      case None =>
        if |clean| > 0 && IsUpper(clean[0]) {
          NamedNotNil(clean, withComment, expand, tables);
        }
    }
  }

  lemma VectorNotNil(inner: string, expand: bool, tables: Tables)
    ensures VectorExample(inner, expand, tables) != "nil"
  {
    var v := VectorExample(inner, expand, tables);
    assert v[0] == '[';
  }

  lemma NamedNotNil(clean: string, withComment: bool, expand: bool, tables: Tables)
    ensures NamedExample(clean, withComment, expand, tables) != "nil"
  {
    var probe := if clean in tables.interfaces then tables.interfaces[clean] else clean;
    var e := if expand then ExpandedStruct(probe, tables.structs) else None;
    if e.Some? {
      ExpandedNotNil(probe, tables.structs);
    } else {
      var v := NamedExample(clean, withComment, expand, tables);
      assert |v| >= 4 && v[..4] == "&tg.";
    }
  }

  lemma ExpandedNotNil(typeName: string, structs: map<string, string>)
    requires typeName in structs
    ensures ExpandedStruct(typeName, structs).value[0] == '&'
  {
  }

  /**
   * A capitalised type outside both tables, other than `Bool` and names
   * containing `string`, is a bare struct literal of its Go name.
   */
  lemma UncuratedNamed(fieldType: string, withComment: bool, expand: bool, tables: Tables)
    requires var clean := StripFlags(fieldType);
             && |clean| > 0 && IsUpper(clean[0]) && clean != "Bool" && !Contains(clean, "string")
             && VectorInner(clean).None? && clean !in tables.interfaces && clean !in tables.structs
    ensures TypeExample(fieldType, withComment, expand, tables) == "&tg." + ToGoName(StripFlags(fieldType)) + "{}"
  {
  }
  /**
   * A capitalised interface type with a curated implementation is shown as
   * that implementation: its expanded literal when expansion is on and the
   * implementation has initialisers, else a bare literal of it, followed by
   * a hint naming the interface when a comment is asked for.
   */
  lemma CuratedInterface(fieldType: string, withComment: bool, expand: bool, tables: Tables)
    requires var clean := StripFlags(fieldType);
             && |clean| > 0 && IsUpper(clean[0]) && clean != "Bool" && !Contains(clean, "string")
             && VectorInner(clean).None? && clean in tables.interfaces
    ensures var clean := StripFlags(fieldType);
            var impl := tables.interfaces[clean];
            TypeExample(fieldType, withComment, expand, tables) ==
              if expand && impl in tables.structs then ExpandedStruct(impl, tables.structs).value
              else if withComment then "&tg." + ToGoName(impl) + "{}  // or other " + clean + " implementations"
              else "&tg." + ToGoName(impl) + "{}"
  {
  }

  /**
   * A vector of anything but a plain element type is a Go slice typed by
   * its element's Go name, holding one element literal.
   */
  lemma VectorOfNamed(fieldType: string, inner: string, withComment: bool, expand: bool, tables: Tables)
    requires !Contains(StripFlags(fieldType), "string")
    requires VectorInner(StripFlags(fieldType)) == Some(inner) && !IsPlainElement(inner)
    ensures StartsWith(TypeExample(fieldType, withComment, expand, tables), "[]tg." + ToGoName(inner) + "{")
  {
    VectorTypeExample(fieldType, inner, withComment, expand, tables);
    VectorHead(inner, expand, tables);
  }

  /** A vector type that does not mention `string` reaches the vector branch. */
  lemma VectorTypeExample(fieldType: string, inner: string, withComment: bool, expand: bool, tables: Tables)
    requires !Contains(StripFlags(fieldType), "string")
    requires VectorInner(StripFlags(fieldType)) == Some(inner)
    ensures TypeExample(fieldType, withComment, expand, tables) == VectorExample(inner, expand, tables)
  {
    var clean := StripFlags(fieldType);
    assert |clean| >= 8;
    assert clean != "int" && clean != "int32" && clean != "long" && clean != "int64";
    assert clean != "double" && clean != "bytes" && clean != "Bool" && clean != "true";
  }

  lemma VectorHead(inner: string, expand: bool, tables: Tables)
    requires !IsPlainElement(inner)
    ensures StartsWith(VectorExample(inner, expand, tables), "[]tg." + ToGoName(inner) + "{")
  {
    var head := "[]tg." + ToGoName(inner) + "{";
    var v := VectorExample(inner, expand, tables);
    assert |v| >= |head|;
    forall k | 0 <= k < |head|
      ensures v[k] == head[k]
    {
    }
    assert v[..|head|] == head;
  }

  /**
   * A curated interface whose implementation has initialisers, with
   * expansion on and no comment, is shown as that implementation's
   * expanded literal.
   */
  lemma CuratedExpanded(t: string, impl: string, fields: string, tables: Tables)
    requires StripFlags(t) == t && |t| > 0 && IsUpper(t[0]) && t != "Bool"
    requires !Contains(t, "string") && VectorInner(t).None?
    requires t in tables.interfaces && tables.interfaces[t] == impl
    requires impl in tables.structs && tables.structs[impl] == fields && fields != ""
    ensures TypeExample(t, false, true, tables) == "&tg." + ToGoName(impl) + "{" + fields + "}"
  {
    CuratedInterface(t, false, true, tables);
  }

  /** The shipped tables curate `InputPeer` as `InputPeerUser`, initialised with `UserID: int64(777000)`. */
  lemma ShippedInputPeer(t: string, impl: string)
    requires t == "InputPeer" && impl == "InputPeerUser"
    ensures t in InterfaceExamples && InterfaceExamples[t] == impl
    ensures impl in StructExpansions && StructExpansions[impl] == "UserID: int64(777000)"
  {
  }

  /**
   * On the shipped tables an `InputPeer` argument is shown as the expanded
   * `InputPeerUser` literal.
   */
  lemma InputPeerShown(t: string, impl: string, fields: string, tables: Tables)
    requires t == "InputPeer" && impl == "InputPeerUser" && fields == "UserID: int64(777000)"
    requires tables == Tables(InterfaceExamples, StructExpansions)
    ensures TypeExample(t, false, true, tables) == "&tg." + impl + "{" + fields + "}"
  {
    PlainCapitalised(t);
    ShippedInputPeer(t, impl);
    CuratedExpanded(t, impl, fields, tables);
    InputPeerUserName(impl);
  }

  /** `InputPeerUser` is already in Go form. */
  lemma InputPeerUserName(impl: string)
    requires impl == "InputPeerUser"
    ensures ToGoName(impl) == impl
  {
    var ws := ["Input", "Peer", "User"];
    assert Concat(ws) == impl;
    PascalName(ws);
  }

  /** `InputPeer` is a plain capitalised name with no vector and no `string` in it. */
  lemma PlainCapitalised(t: string)
    requires t == "InputPeer"
    ensures StripFlags(t) == t && |t| > 0 && IsUpper(t[0]) && t != "Bool"
    ensures !Contains(t, "string") && VectorInner(t).None?
  {
    assert |t| == 9 && t[0] == 'I' && 's' !in t;
    BareName(t);
    HeadAbsent(t, "string");
  }

  /** A name starting with neither `f` nor `V` has no flags marker and is no vector. */
  lemma BareName(t: string)
    requires |t| > 0 && t[0] != 'f' && t[0] != 'V'
    ensures StripFlags(t) == t && VectorInner(t).None?
  {
    assert !StartsWith(t, "flags.");
    assert !StartsWith(t, "Vector<");
  }
}


=== FILE: go_name.dfy ===
/**
 * The identifier mangler `to_go_name`: a TL name such as `messages.sendMessage`
 * becomes the Go identifier `MessagesSendMessage`. Each `.`/`_`-separated part is
 * tokenised by the regular expression
 *     [A-Z]?[a-z]+ | [A-Z]+(?=[A-Z][a-z]|\d|\W|$) | \d+
 * which is written out here as a left-to-right scanner, one function per
 * alternative, each specified by what the regular expression matches.
 */
module GoName {

  import opened Strings

  /** The lookahead `(?=[A-Z][a-z]|\d|\W|$)` holds at position `j`. */
  predicate Lookahead(s: string, j: nat)
    requires j <= |s|
  {
    || j == |s|
    || IsDigit(s[j])
    || !IsWordChar(s[j])
    || (j + 1 < |s| && IsUpper(s[j]) && IsLower(s[j + 1]))
  }

  /**
   * Length of the match of the first alternative `[A-Z]?[a-z]+` at `i`, or 0.
   * The optional capital is taken whenever it is there (greedy), and the
   * lower-case run is maximal.
   */
  function CapWordLen(s: string, i: nat): (n: nat)
    requires i < |s|
    ensures i + n <= |s|
    ensures n > 0 ==> IsAlpha(s[i]) && forall k | i < k < i + n :: IsLower(s[k])
    ensures n > 0 ==> i + n == |s| || !IsLower(s[i + n])
    ensures n == 0 <==> !IsLower(s[i]) && !(IsUpper(s[i]) && i + 1 < |s| && IsLower(s[i + 1]))
  {
    if IsUpper(s[i]) then
      var m := Run(s, i + 1, IsLower);
      if m > 0 then 1 + m else 0
    else if IsLower(s[i]) then Run(s, i, IsLower)
    else 0
  }

  /** Backtracking of `[A-Z]+`: the largest `n <= k` whose lookahead holds, or 0. */
  function AcronymBacktrack(s: string, i: nat, k: nat): (n: nat)
    requires i + k <= |s|
    ensures n <= k
    ensures n > 0 ==> Lookahead(s, i + n)
    ensures forall j | i + n < j <= i + k :: !Lookahead(s, j)
    decreases k
  {
    if k == 0 then 0
    else if Lookahead(s, i + k) then k
    else AcronymBacktrack(s, i, k - 1)
  }

  /**
   * Length of the match of the second alternative `[A-Z]+(?=[A-Z][a-z]|\d|\W|$)`
   * at `i`, or 0: the longest run of capitals starting at `i` after which the
   * lookahead holds.
   */
  function AcronymLen(s: string, i: nat): (n: nat)
    requires i < |s|
    ensures i + n <= |s|
    ensures forall k | i <= k < i + n :: IsUpper(s[k])
    ensures n > 0 ==> Lookahead(s, i + n)
    ensures forall j | i + n < j <= |s| && (forall k | i <= k < j :: IsUpper(s[k])) :: !Lookahead(s, j)
  {
    var run := Run(s, i, IsUpper);
    AcronymBacktrack(s, i, run)
  }

  /** Length of the match of the third alternative `\d+` at `i`, or 0. */
  function DigitsLen(s: string, i: nat): (n: nat)
    requires i < |s|
    ensures i + n <= |s|
    ensures forall k | i <= k < i + n :: IsDigit(s[k])
    ensures n == 0 <==> !IsDigit(s[i])
    ensures i + n == |s| || !IsDigit(s[i + n])
  {
    Run(s, i, IsDigit)
  }

  /**
   * Length of the match of the whole alternation at `i` (alternatives tried in
   * order, the first that matches wins), or 0 when nothing matches there.
   * A match consists of letters and digits only, and every lower-case letter
   * or digit starts one; so does a capital when no underscore follows it.
   */
  function MatchLen(s: string, i: nat): (n: nat)
    requires i < |s|
    ensures i + n <= |s|
    ensures forall k | i <= k < i + n :: IsAlnum(s[k])
    ensures IsLower(s[i]) || IsDigit(s[i]) ==> n > 0
    ensures IsUpper(s[i]) && (forall k | i <= k < |s| :: s[k] != '_') ==> n > 0
  {
    var a := CapWordLen(s, i);
    if a > 0 then a
    else
      var b := AcronymLen(s, i);
      if b > 0 then b
      else
        if IsUpper(s[i]) && (forall k | i <= k < |s| :: s[k] != '_') then
          AcronymExists(s, i);
          DigitsLen(s, i)
        else
          DigitsLen(s, i)
  }

  /** A capital not followed by an underscore always starts an acronym match. */
  lemma AcronymExists(s: string, i: nat)
    requires i < |s| && IsUpper(s[i])
    requires forall k | i <= k < |s| :: s[k] != '_'
    requires CapWordLen(s, i) == 0
    ensures AcronymLen(s, i) > 0
  {
    var run := Run(s, i, IsUpper);
    var e := i + run;
    if e == |s| || !IsLower(s[e]) {
      assert Lookahead(s, e);
    } else {
      assert run >= 2;
      assert Lookahead(s, e - 1);
    }
  }

  datatype Span = Span(start: nat, len: nat)

  /** No match of the alternation starts anywhere in `[a, b)`. */
  ghost predicate NoMatchIn(s: string, a: nat, b: nat)
    requires b <= |s|
  {
    forall p | a <= p < b :: MatchLen(s, p) == 0
  }

  /**
   * `ts` is what `re.findall` reports when it scans `s` from `i`: each match
   * is the one found at the first position after the previous match where the
   * alternation matches at all, and nothing matches after the last one.
   */
  ghost predicate FindAll(s: string, i: nat, ts: seq<Span>)
    requires i <= |s|
    decreases |ts|
  {
    if ts == [] then NoMatchIn(s, i, |s|)
    else
      var t := ts[0];
      && i <= t.start < |s|
      && NoMatchIn(s, i, t.start)
      && t.len == MatchLen(s, t.start) > 0
      && FindAll(s, t.start + t.len, ts[1..])
  }

  /** The scanner: all non-overlapping matches in `s[i..]`, left to right. */
  function Tokens(s: string, i: nat): (ts: seq<Span>)
    requires i <= |s|
    ensures FindAll(s, i, ts)
    decreases |s| - i
  {
    if i == |s| then []
    else
      var n := MatchLen(s, i);
      if n == 0 then
        var ts := Tokens(s, i + 1);
        FindAllSkip(s, i, ts);
        ts
      else
        var ts := Tokens(s, i + n);
        FindAllTake(s, i, ts);
        [Span(i, n)] + ts
  }

  /** Nothing matching at `i` leaves the matches from `i + 1` as those from `i`. */
  lemma FindAllSkip(s: string, i: nat, ts: seq<Span>)
    requires i < |s| && MatchLen(s, i) == 0 && FindAll(s, i + 1, ts)
    ensures FindAll(s, i, ts)
  {
    if ts == [] {
      assert NoMatchIn(s, i, |s|);
    } else {
      assert NoMatchIn(s, i, ts[0].start);
    }
  }

  /** A match at `i` comes first, before the matches from its end. */
  lemma FindAllTake(s: string, i: nat, ts: seq<Span>)
    requires i < |s| && MatchLen(s, i) > 0 && i + MatchLen(s, i) <= |s|
    requires FindAll(s, i + MatchLen(s, i), ts)
    ensures FindAll(s, i, [Span(i, MatchLen(s, i))] + ts)
  {
    var us := [Span(i, MatchLen(s, i))] + ts;
    assert us[0] == Span(i, MatchLen(s, i)) && us[1..] == ts;
    assert NoMatchIn(s, i, i);
  }

  /** `re.findall` has exactly one answer: the scanner's. */
  lemma {:induction false} FindAllUnique(s: string, i: nat, ts: seq<Span>, us: seq<Span>)
    requires i <= |s|
    requires FindAll(s, i, ts) && FindAll(s, i, us)
    ensures ts == us
    decreases |ts|
  {
    if ts != [] && us != [] {
      var t, u := ts[0], us[0];
      assert MatchLen(s, t.start) > 0 && MatchLen(s, u.start) > 0;
      assert t.start == u.start;
      FindAllUnique(s, t.start + t.len, ts[1..], us[1..]);
      assert ts == [t] + ts[1..];
      assert us == [u] + us[1..];
    } else if ts != [] || us != [] {
      assert false;
    }
  }

  /** Every span lies inside `s`. */
  predicate InBounds(s: string, ts: seq<Span>) {
    forall k | 0 <= k < |ts| :: ts[k].start + ts[k].len <= |s|
  }

  /** The text of each span. */
  function SpanTexts(s: string, ts: seq<Span>): (ws: seq<string>)
    requires InBounds(s, ts)
    ensures |ws| == |ts|
    ensures forall k | 0 <= k < |ts| :: ws[k] == s[ts[k].start..ts[k].start + ts[k].len]
  {
    if |ts| == 0 then [] else [s[ts[0].start..ts[0].start + ts[0].len]] + SpanTexts(s, ts[1..])
  }

  /** The words `re.findall` returns for one part. */
  function Words(part: string): (ws: seq<string>)
  {
    var ts := Tokens(part, 0);
    FindAllInBounds(part, 0, ts);
    SpanTexts(part, ts)
  }

  /** Every reported match lies inside `s` and is alphanumeric. */
  lemma {:induction false} FindAllBounds(s: string, i: nat, ts: seq<Span>, k: nat)
    requires i <= |s| && FindAll(s, i, ts) && k < |ts|
    ensures i <= ts[k].start && ts[k].start + ts[k].len <= |s|
    ensures forall q | ts[k].start <= q < ts[k].start + ts[k].len :: IsAlnum(s[q])
    decreases k
  {
    if k > 0 {
      FindAllBounds(s, ts[0].start + ts[0].len, ts[1..], k - 1);
    }
  }

  lemma FindAllInBounds(s: string, i: nat, ts: seq<Span>)
    requires i <= |s| && FindAll(s, i, ts)
    ensures InBounds(s, ts)
  {
    forall k | 0 <= k < |ts|
      ensures ts[k].start + ts[k].len <= |s|
    {
      FindAllBounds(s, i, ts, k);
    }
  }

  /** Where every position starts a match, the matches tile the rest of `s`. */
  lemma {:induction false} FindAllCovers(s: string, i: nat, ts: seq<Span>)
    requires i <= |s| && FindAll(s, i, ts)
    requires forall p | i <= p < |s| :: MatchLen(s, p) > 0
    ensures InBounds(s, ts)
    ensures Concat(SpanTexts(s, ts)) == s[i..]
    decreases |ts|
  {
    FindAllInBounds(s, i, ts);
    if i < |s| {
      FirstMatchAt(s, i, ts);
      var n := ts[0].len;
      FindAllCovers(s, i + n, ts[1..]);
      CoverStep(s, i, n, ts);
    }
  }

  /** A first span at `i` followed by spans covering the rest covers everything from `i`. */
  lemma CoverStep(s: string, i: nat, n: nat, ts: seq<Span>)
    requires InBounds(s, ts) && |ts| > 0 && ts[0] == Span(i, n) && i + n <= |s|
    requires InBounds(s, ts[1..]) && Concat(SpanTexts(s, ts[1..])) == s[i + n..]
    ensures Concat(SpanTexts(s, ts)) == s[i..]
  {
    TextsCons(s, ts);
    SliceSplit(s, i, i + n);
  }

  lemma SliceSplit(s: string, i: nat, j: nat)
    requires i <= j <= |s|
    ensures s[i..] == s[i..j] + s[j..]
  {
  }

  lemma TextsCons(s: string, ts: seq<Span>)
    requires InBounds(s, ts) && |ts| > 0
    ensures InBounds(s, ts[1..])
    ensures Concat(SpanTexts(s, ts)) == s[ts[0].start..ts[0].start + ts[0].len] + Concat(SpanTexts(s, ts[1..]))
  {
    var ws := SpanTexts(s, ts);
    assert ws[1..] == SpanTexts(s, ts[1..]);
  }

  /** Where a match starts at the scan position, it is the first one reported. */
  lemma FirstMatchAt(s: string, i: nat, ts: seq<Span>)
    requires i < |s| && FindAll(s, i, ts) && MatchLen(s, i) > 0
    ensures ts != [] && ts[0] == Span(i, MatchLen(s, i))
    ensures FindAll(s, i + MatchLen(s, i), ts[1..])
  {
    assert !NoMatchIn(s, i, |s|);
    assert MatchLen(s, i) > 0;
  }

  /** A part made of letters and digits is exactly the concatenation of its words. */
  lemma AlnumPartIsItsWords(part: string)
    requires forall k | 0 <= k < |part| :: IsAlnum(part[k])
    ensures Concat(Words(part)) == part
  {
    forall p | 0 <= p < |part|
      ensures MatchLen(part, p) > 0
    {
    }
    FindAllCovers(part, 0, Tokens(part, 0));
  }

  function ConcatCapitalized(ws: seq<string>): string
  {
    if |ws| == 0 then "" else Capitalize(ws[0]) + ConcatCapitalized(ws[1..])
  }

  /** One part's contribution: its capitalised words, or the part capitalised. */
  function PartName(part: string): string
  {
    var ws := Words(part);
    if |ws| > 0 then ConcatCapitalized(ws) else Capitalize(part)
  }

  function ConcatPartNames(parts: seq<string>): string
  {
    if |parts| == 0 then "" else PartName(parts[0]) + ConcatPartNames(parts[1..])
  }

  /** The parts `to_go_name` splits a name into: `.` and `_` both separate. */
  function Parts(name: string): (parts: seq<string>)
    ensures forall k | 0 <= k < |parts| :: '_' !in parts[k] && '.' !in parts[k]
  {
    assert '.' !in Replace(name, '.', '_');
    Split(Replace(name, '.', '_'), '_')
  }

  /** `to_go_name` (build_html.py:133-151). */
  function ToGoName(name: string): (r: string)
    ensures '.' !in r && '_' !in r
  {
    var parts := Parts(name);
    NoSeparatorInPartNames(parts);
    ConcatPartNames(parts)
  }

  /** Capitalising keeps a word free of a character that is not a letter. */
  lemma CapitalizeKeeps(w: string, c: char)
    requires !IsAlpha(c) && c !in w
    ensures c !in Capitalize(w)
  {
    var r := Capitalize(w);
    forall k | 0 <= k < |r|
      ensures r[k] != c
    {
      if !IsAlpha(w[k]) {
        assert r[k] == w[k];
      } else if k == 0 {
        assert IsUpper(r[k]);
      } else {
        assert IsLower(r[k]);
      }
    }
  }

  lemma {:induction false} WordsAlnum(part: string, k: nat)
    requires k < |Words(part)|
    ensures forall q | 0 <= q < |Words(part)[k]| :: IsAlnum(Words(part)[k][q])
  {
    var ts := Tokens(part, 0);
    FindAllBounds(part, 0, ts, k);
  }

  lemma {:induction false} NoSeparatorInConcat(ws: seq<string>, c: char)
    requires !IsAlpha(c)
    requires forall k | 0 <= k < |ws| :: c !in ws[k]
    ensures c !in ConcatCapitalized(ws)
    decreases |ws|
  {
    if |ws| > 0 {
      CapitalizeKeeps(ws[0], c);
      NoSeparatorInConcat(ws[1..], c);
    }
  }

  lemma NoSeparatorInPartName(part: string, c: char)
    requires c == '.' || c == '_'
    requires c !in part
    ensures c !in PartName(part)
  {
    var ws := Words(part);
    if |ws| > 0 {
      forall k | 0 <= k < |ws|
        ensures c !in ws[k]
      {
        WordsAlnum(part, k);
        assert forall q | 0 <= q < |ws[k]| :: ws[k][q] != c;
      }
      NoSeparatorInConcat(ws, c);
    } else {
      CapitalizeKeeps(part, c);
    }
  }

  lemma {:induction false} NoSeparatorInPartNames(parts: seq<string>)
    requires forall k | 0 <= k < |parts| :: '_' !in parts[k] && '.' !in parts[k]
    ensures '.' !in ConcatPartNames(parts) && '_' !in ConcatPartNames(parts)
    decreases |parts|
  {
    if |parts| > 0 {
      NoSeparatorInPartName(parts[0], '.');
      NoSeparatorInPartName(parts[0], '_');
      NoSeparatorInPartNames(parts[1..]);
    }
  }

  lemma {:induction false} LowerConcatCapitalized(ws: seq<string>)
    ensures LowerAll(ConcatCapitalized(ws)) == LowerAll(Concat(ws))
    decreases |ws|
  {
    if |ws| > 0 {
      LowerConcatCapitalized(ws[1..]);
      LowerAllAppend(Capitalize(ws[0]), ConcatCapitalized(ws[1..]));
      LowerAllAppend(ws[0], Concat(ws[1..]));
    }
  }

  /** An alphanumeric part changes only in letter case. */
  lemma LowerPartName(part: string)
    requires forall k | 0 <= k < |part| :: IsAlnum(part[k])
    ensures LowerAll(PartName(part)) == LowerAll(part)
  {
    var ws := Words(part);
    if |ws| > 0 {
      AlnumPartIsItsWords(part);
      LowerConcatCapitalized(ws);
    }
  }

  lemma {:induction false} LowerPartNames(parts: seq<string>)
    requires forall k, q | 0 <= k < |parts| && 0 <= q < |parts[k]| :: IsAlnum(parts[k][q])
    ensures LowerAll(ConcatPartNames(parts)) == LowerAll(Concat(parts))
    decreases |parts|
  {
    if |parts| > 0 {
      LowerPartName(parts[0]);
      LowerPartNames(parts[1..]);
      LowerAllAppend(PartName(parts[0]), ConcatPartNames(parts[1..]));
      LowerAllAppend(parts[0], Concat(parts[1..]));
    }
  }

  /** The name's letters and digits, in order: its separators `.` and `_` dropped. */
  function Unseparated(name: string): (r: string)
  {
    Remove(Remove(name, '.'), '_')
  }

  lemma {:induction false} RemoveReplaced(name: string)
    ensures Remove(Replace(name, '.', '_'), '_') == Unseparated(name)
    decreases |name|
  {
    if |name| > 0 {
      RemoveReplaced(name[1..]);
      assert Replace(name, '.', '_')[1..] == Replace(name[1..], '.', '_');
      var head := if name[0] == '.' then "" else [name[0]];
      assert Remove(name, '.') == head + Remove(name[1..], '.');
      RemoveAppend(head, Remove(name[1..], '.'), '_');
    }
  }

  /**
   * For a name of letters, digits, dots and underscores, `to_go_name` only
   * drops the separators and changes letter case: no character is lost,
   * added or reordered.
   */
  lemma GoNameSpellsName(name: string)
    requires forall k | 0 <= k < |name| :: IsAlnum(name[k]) || name[k] == '.' || name[k] == '_'
    ensures LowerAll(ToGoName(name)) == LowerAll(Unseparated(name))
    ensures |ToGoName(name)| == |Unseparated(name)|
  {
    var replaced := Replace(name, '.', '_');
    var parts := Parts(name);
    forall k, q | 0 <= k < |parts| && 0 <= q < |parts[k]|
      ensures IsAlnum(parts[k][q])
    {
      assert parts[k][q] in parts[k];
      assert parts[k][q] in replaced;
    }
    LowerPartNames(parts);
    ConcatSplit(replaced, '_');
    RemoveReplaced(name);
  }

  /** A camel-case word: a letter followed by at least one lower-case letter. */
  predicate CamelWord(w: string) {
    |w| >= 2 && IsAlpha(w[0]) && forall j | 1 <= j < |w| :: IsLower(w[j])
  }

  /** Camel-case words, every one after the first starting with a capital. */
  predicate CamelWords(ws: seq<string>) {
    && (forall k | 0 <= k < |ws| :: CamelWord(ws[k]))
    && (forall k | 1 <= k < |ws| :: IsUpper(ws[k][0]))
  }

  /** A camel-case word at `i` is exactly one match of the first alternative. */
  lemma CamelWordMatch(s: string, i: nat, w: string)
    requires CamelWord(w) && i + |w| <= |s| && s[i..i + |w|] == w
    requires i + |w| == |s| || IsUpper(s[i + |w|])
    ensures MatchLen(s, i) == |w|
  {
    assert s[i] == w[0];
    assert forall j | i + 1 <= j < i + |w| :: s[j] == w[j - i];
    if IsUpper(s[i]) {
      RunExact(s, i + 1, IsLower, |w| - 1);
    } else {
      RunExact(s, i, IsLower, |w|);
    }
  }

  /** The first of a run of camel-case words is the match at its start. */
  lemma CamelStep(s: string, i: nat, ws: seq<string>)
    requires i <= |s| && s[i..] == Concat(ws) && CamelWords(ws) && |ws| > 0
    ensures i + |ws[0]| <= |s| && MatchLen(s, i) == |ws[0]|
    ensures s[i + |ws[0]|..] == Concat(ws[1..]) && CamelWords(ws[1..])
  {
    var w := ws[0];
    assert s[i..] == w + Concat(ws[1..]);
    assert s[i..i + |w|] == w;
    assert s[i + |w|..] == Concat(ws[1..]);
    if 1 < |ws| {
      assert Concat(ws[1..]) == ws[1] + Concat(ws[2..]);
      assert s[i + |w|] == ws[1][0];
    }
    CamelWordMatch(s, i, w);
  }

  /** The spans of consecutive words laid end to end from `i`. */
  function Consecutive(i: nat, ws: seq<string>): seq<Span>
    decreases |ws|
  {
    if |ws| == 0 then [] else [Span(i, |ws[0]|)] + Consecutive(i + |ws[0]|, ws[1..])
  }

  /** A match at the scan position followed by the matches after it. */
  lemma FindAllCons(s: string, i: nat, n: nat, rest: seq<Span>)
    requires i + n <= |s| && n > 0 && MatchLen(s, i) == n
    requires FindAll(s, i + n, rest)
    ensures FindAll(s, i, [Span(i, n)] + rest)
  {
    assert ([Span(i, n)] + rest)[1..] == rest;
  }

  lemma ConsecutiveCons(i: nat, ws: seq<string>)
    requires |ws| > 0
    ensures Consecutive(i, ws) == [Span(i, |ws[0]|)] + Consecutive(i + |ws[0]|, ws[1..])
  {
  }

  /** The matches in a run of camel-case words are the words themselves. */
  lemma {:induction false} CamelFindAll(s: string, i: nat, ws: seq<string>)
    requires i <= |s| && s[i..] == Concat(ws) && CamelWords(ws)
    ensures FindAll(s, i, Consecutive(i, ws))
    decreases |ws|
  {
    if |ws| > 0 {
      var n := |ws[0]|;
      CamelStep(s, i, ws);
      var j, rest := i + n, ws[1..];
      CamelFindAll(s, j, rest);
      assert CamelWord(ws[0]);
      ConsecutiveCons(i, ws);
      FindAllCons(s, i, n, Consecutive(j, rest));
    } else {
      assert i == |s|;
    }
  }

  /** The scanner splits a run of camel-case words at their capitals. */
  lemma CamelTokens(s: string, i: nat, ws: seq<string>)
    requires i <= |s| && s[i..] == Concat(ws) && CamelWords(ws)
    ensures Tokens(s, i) == Consecutive(i, ws)
  {
    CamelFindAll(s, i, ws);
    FindAllUnique(s, i, Tokens(s, i), Consecutive(i, ws));
  }

  lemma {:induction false} ConsecutiveTexts(s: string, i: nat, ws: seq<string>)
    requires i <= |s| && s[i..] == Concat(ws)
    ensures InBounds(s, Consecutive(i, ws))
    ensures SpanTexts(s, Consecutive(i, ws)) == ws
    decreases |ws|
  {
    if |ws| > 0 {
      var w := ws[0];
      assert s[i..] == w + Concat(ws[1..]);
      assert s[i..i + |w|] == w;
      assert s[i + |w|..] == Concat(ws[1..]);
      ConsecutiveTexts(s, i + |w|, ws[1..]);
      var ts := Consecutive(i, ws);
      assert ts[1..] == Consecutive(i + |w|, ws[1..]);
      assert SpanTexts(s, ts) == [w] + SpanTexts(s, ts[1..]);
      assert ws == [w] + ws[1..];
    }
  }

  /** A camel-case part contributes its words, each capitalised. */
  lemma CamelPartName(ws: seq<string>)
    requires |ws| > 0 && CamelWords(ws)
    ensures PartName(Concat(ws)) == ConcatCapitalized(ws)
  {
    CamelTokens(Concat(ws), 0, ws);
    ConsecutiveTexts(Concat(ws), 0, ws);
  }

  /** A name without separators is a single part. */
  lemma SinglePart(name: string)
    requires '.' !in name && '_' !in name
    ensures ToGoName(name) == PartName(name)
  {
    assert Replace(name, '.', '_') == name;
    SplitAbsent(name, '_');
    assert Parts(name) == [name];
    assert [name][1..] == [];
    assert ConcatPartNames([name]) == PartName(name) + ConcatPartNames([]);
  }

  /** A namespaced name mangles to its namespace's mangling followed by its item's. */
  lemma NamespacedName(ns: string, item: string)
    requires '.' !in ns && '_' !in ns && '.' !in item && '_' !in item
    ensures ToGoName(ns + "." + item) == ToGoName(ns) + ToGoName(item)
  {
    assert Replace(ns + "." + item, '.', '_') == ns + "_" + item;
    SplitOnce(ns, item, '_');
    assert Parts(ns + "." + item) == [ns, item];
    assert [ns, item][1..] == [item];
    assert ConcatPartNames([item]) == PartName(item) + ConcatPartNames([]);
    assert ConcatPartNames([ns, item]) == PartName(ns) + ConcatPartNames([item]);
    SinglePart(ns);
    SinglePart(item);
  }

  /** Camel-case words hold letters only, so neither separator. */
  lemma {:induction false} CamelUnseparated(ws: seq<string>)
    requires CamelWords(ws)
    ensures '.' !in Concat(ws) && '_' !in Concat(ws)
    decreases |ws|
  {
    if |ws| > 0 {
      assert CamelWord(ws[0]);
      assert CamelWords(ws[1..]);
      CamelUnseparated(ws[1..]);
      assert forall k | 0 <= k < |ws[0]| :: IsAlpha(ws[0][k]);
    }
  }

  /** An undotted camel-case name mangles to its words, each capitalised. */
  lemma CamelName(ws: seq<string>)
    requires |ws| > 0 && CamelWords(ws)
    ensures ToGoName(Concat(ws)) == ConcatCapitalized(ws)
  {
    CamelPartName(ws);
    CamelUnseparated(ws);
    SinglePart(Concat(ws));
  }

  /** A word that is already capitalised is left as it is. */
  lemma CapitalizedFixed(w: string)
    requires CamelWord(w) && IsUpper(w[0])
    ensures Capitalize(w) == w
  {
    var r := Capitalize(w);
    forall k | 0 <= k < |w|
      ensures r[k] == w[k]
    {
      if k > 0 {
        assert r[k] == Lower(w[k]);
      }
    }
  }

  /** Capitalised words are their own capitalisation. */
  lemma {:induction false} CapitalizedWordsFixed(ws: seq<string>)
    requires forall k | 0 <= k < |ws| :: CamelWord(ws[k]) && IsUpper(ws[k][0])
    ensures ConcatCapitalized(ws) == Concat(ws)
    decreases |ws|
  {
    if |ws| > 0 {
      CapitalizedFixed(ws[0]);
      CapitalizedWordsFixed(ws[1..]);
    }
  }

  /** A PascalCase name, every word capitalised, is its own Go name. */
  lemma PascalName(ws: seq<string>)
    requires |ws| > 0 && CamelWords(ws) && IsUpper(ws[0][0])
    ensures ToGoName(Concat(ws)) == Concat(ws)
  {
    assert forall k | 0 <= k < |ws| :: CamelWord(ws[k]) && IsUpper(ws[k][0]) by {
      forall k | 0 <= k < |ws|
        ensures IsUpper(ws[k][0])
      {
        if k > 0 {
          assert IsUpper(ws[k][0]);
        }
      }
    }
    CapitalizedWordsFixed(ws);
    var name := Concat(ws);
    assert ConcatCapitalized(ws) == name;
    CamelName(ws);
  }

  /** A namespaced camel-case name mangles to both halves' words, capitalised. */
  lemma NamespacedCamelName(ns: seq<string>, item: seq<string>)
    requires |ns| > 0 && CamelWords(ns) && |item| > 0 && CamelWords(item)
    ensures ToGoName(Concat(ns) + "." + Concat(item)) == ConcatCapitalized(ns) + ConcatCapitalized(item)
  {
    CamelUnseparated(ns);
    CamelUnseparated(item);
    NamespacedName(Concat(ns), Concat(item));
    CamelName(ns);
    CamelName(item);
  }
}

=== FILE: gogram.dfy ===
/**
 * The Gogram usage snippet on every constructor and method page: a call
 * with positional arguments or through a `Params` struct for a method, a
 * struct literal for a constructor. The snippet is modelled as its lines;
 * the page text is those lines joined with newlines.
 */
module Gogram {

  import opened Maybe
  import opened Strings
  import opened Entries
  import opened TypeSyntax
  import opened GoName
  import opened Examples
  import opened TypeMap

  /** The flags word itself, or a field of bare type `#`: it becomes no parameter. */
  predicate IsFlagsField(f: Field) {
    f.name == "flags" || f.typ == "#"
  }

  /** Whether a field becomes a parameter of the given kind (optional or required). */
  predicate KeptAs(f: Field, optional: bool) {
    !IsFlagsField(f) && IsOptionalType(f.typ) == optional
  }

  /** The fields that become parameters of the given kind, in declaration order. */
  function Kept(fs: seq<Field>, optional: bool): seq<Field>
    decreases |fs|
  {
    if |fs| == 0 then []
    else
      var last := fs[|fs| - 1];
      Kept(fs[..|fs| - 1], optional) + (if KeptAs(last, optional) then [last] else [])
  }

  /** Filtering distributes over concatenation. */
  lemma {:induction false} KeptAppend(a: seq<Field>, b: seq<Field>, optional: bool)
    ensures Kept(a + b, optional) == Kept(a, optional) + Kept(b, optional)
    decreases |b|
  {
    if |b| == 0 {
      assert a + b == a;
    } else {
      var init := b[..|b| - 1];
      assert (a + b)[..|a + b| - 1] == a + init;
      assert (a + b)[|a + b| - 1] == b[|b| - 1];
      KeptAppend(a, init, optional);
    }
  }

  /**
   * Every field lands in exactly one place: as a required parameter, as an
   * optional one, or nowhere when it is the flags word; each kept field
   * appears as often as it is declared.
   */
  lemma {:induction false} KeptCounts(fs: seq<Field>, optional: bool)
    ensures forall f :: multiset(Kept(fs, optional))[f] == (if KeptAs(f, optional) then multiset(fs)[f] else 0)
    decreases |fs|
  {
    if |fs| > 0 {
      var init, last := fs[..|fs| - 1], fs[|fs| - 1];
      KeptCounts(init, optional);
      assert fs == init + [last];
    }
  }

  /** A parameter as shown: its Go name and an example value. */
  datatype Param = Param(name: string, value: string)

  /** A field's parameter: the example is expanded but carries no comment. */
  function ParamOf(f: Field, tables: Tables): (p: Param)
    ensures p.name == ToGoName(f.name)
  {
    Param(ToGoName(f.name), TypeExample(f.typ, false, true, tables))
  }

  function ParamsOf(fs: seq<Field>, tables: Tables): (ps: seq<Param>)
    ensures |ps| == |fs|
    ensures forall k | 0 <= k < |fs| :: ps[k] == ParamOf(fs[k], tables)
  {
    MapSeq(fs, f => ParamOf(f, tables))
  }

  /** `[f(x) for x in xs]`. */
  function MapSeq<A, B>(xs: seq<A>, f: A -> B): (ys: seq<B>)
    ensures |ys| == |xs|
    ensures forall k | 0 <= k < |xs| :: ys[k] == f(xs[k])
  {
    seq(|xs|, k requires 0 <= k < |xs| => f(xs[k]))
  }

  lemma MapSnoc<A, B>(xs: seq<A>, x: A, f: A -> B)
    ensures MapSeq(xs + [x], f) == MapSeq(xs, f) + [f(x)]
  {
    assert |MapSeq(xs + [x], f)| == |MapSeq(xs, f) + [f(x)]|;
  }

  /**
   * The field loop of `generate_gogram_example`: one pass that skips the
   * flags word and sorts the rest into required and optional parameters,
   * each list in declaration order.
   */
  method CollectParams(fs: seq<Field>, tables: Tables) returns (req: seq<Param>, opt: seq<Param>)
    ensures req == ParamsOf(Kept(fs, false), tables)
    ensures opt == ParamsOf(Kept(fs, true), tables)
  {
    req, opt := [], [];
    for i := 0 to |fs|
      invariant req == ParamsOf(Kept(fs[..i], false), tables)
      invariant opt == ParamsOf(Kept(fs[..i], true), tables)
    {
      var f := fs[i];
      CollectStep(fs, i, false, tables);
      CollectStep(fs, i, true, tables);
      if IsFlagsField(f) {
        continue;
      }
      var p := ParamOf(f, tables);
      if IsOptionalType(f.typ) {
        opt := opt + [p];
      } else {
        req := req + [p];
      }
    }
    assert fs[..|fs|] == fs;
  }

  lemma CollectStep(fs: seq<Field>, i: nat, optional: bool, tables: Tables)
    requires i < |fs|
    ensures ParamsOf(Kept(fs[..i + 1], optional), tables) ==
            ParamsOf(Kept(fs[..i], optional), tables) + (if KeptAs(fs[i], optional) then [ParamOf(fs[i], tables)] else [])
  {
    assert fs[..i + 1][..i] == fs[..i];
    var a := Kept(fs[..i], optional);
    if KeptAs(fs[i], optional) {
      assert Kept(fs[..i + 1], optional) == a + [fs[i]];
      MapSnoc(a, fs[i], f => ParamOf(f, tables));
    } else {
      assert Kept(fs[..i + 1], optional) == a + [];
      assert a + [] == a;
    }
  }

  /** Python's `ps[:n]`. */
  function Take<T>(ps: seq<T>, n: nat): (r: seq<T>)
    ensures |r| == if |ps| <= n then |ps| else n
    ensures forall k | 0 <= k < |r| :: r[k] == ps[k]
  {
    if |ps| <= n then ps else ps[..n]
  }

  /** How much of each list a `Params` or struct listing shows, and what marks the rest. */
  datatype Layout = Layout(reqLimit: nat, optLimit: nat, moreReq: string, moreOpt: string)

  const MethodLayout: Layout := Layout(8, 4, "    // ...", "    // ...")
  const ConstructorLayout: Layout := Layout(6, 4, "    // ... more required fields", "    // ... more optional fields")

  function RequiredLine(p: Param): string {
    "    " + p.name + ": " + p.value + ","
  }

  function OptionalLine(p: Param): string {
    "    // " + p.name + ": " + p.value + ","
  }

  const OptionalHeading: string := "    // Optional fields:"

  /**
   * The listing inside a `Params` struct or a constructor literal: the
   * first required parameters, a marker when some are cut, then (only if
   * there are optional parameters) a blank line, a heading, the first
   * optional parameters commented out and a marker when some are cut.
   */
  function ParamsLines(req: seq<Param>, opt: seq<Param>, layout: Layout): seq<string>
  {
    RequiredPart(req, layout) + OptionalPart(opt, layout)
  }

  /** The required parameters shown, then the marker when some are cut. */
  function RequiredPart(req: seq<Param>, layout: Layout): seq<string>
  {
    var shown := Take(req, layout.reqLimit);
    seq(|shown|, k requires 0 <= k < |shown| => RequiredLine(shown[k]))
    + (if |req| > layout.reqLimit then [layout.moreReq] else [])
  }

  /** Nothing without optional parameters; else a blank line, the heading, those shown and the marker. */
  function OptionalPart(opt: seq<Param>, layout: Layout): seq<string>
  {
    var shown := Take(opt, layout.optLimit);
    if |opt| == 0 then []
    else ["", OptionalHeading]
         + seq(|shown|, k requires 0 <= k < |shown| => OptionalLine(shown[k]))
         + (if |opt| > layout.optLimit then [layout.moreOpt] else [])
  }

  function Min(a: nat, b: nat): nat {
    if a <= b then a else b
  }

  /** How many lines the required parameters take: those shown, and the marker if any. */
  function RequiredPartLength(req: seq<Param>, layout: Layout): nat {
    Min(|req|, layout.reqLimit) + (if |req| > layout.reqLimit then 1 else 0)
  }

  /** How many lines the optional section takes. */
  function OptionalPartLength(opt: seq<Param>, layout: Layout): nat {
    if |opt| == 0 then 0 else 2 + Min(|opt|, layout.optLimit) + (if |opt| > layout.optLimit then 1 else 0)
  }

  lemma RequiredPartShape(req: seq<Param>, layout: Layout)
    ensures |RequiredPart(req, layout)| == RequiredPartLength(req, layout)
    ensures forall k | 0 <= k < Min(|req|, layout.reqLimit) :: RequiredPart(req, layout)[k] == RequiredLine(req[k])
    ensures |req| > layout.reqLimit ==> RequiredPart(req, layout)[layout.reqLimit] == layout.moreReq
  {
  }

  lemma OptionalPartShape(opt: seq<Param>, layout: Layout)
    ensures |OptionalPart(opt, layout)| == OptionalPartLength(opt, layout)
    ensures |opt| > 0 ==> OptionalPart(opt, layout)[0] == "" && OptionalPart(opt, layout)[1] == OptionalHeading
    ensures forall k | 0 <= k < Min(|opt|, layout.optLimit) :: OptionalPart(opt, layout)[2 + k] == OptionalLine(opt[k])
    ensures |opt| > layout.optLimit ==> OptionalPart(opt, layout)[OptionalPartLength(opt, layout) - 1] == layout.moreOpt
  {
    if |opt| > 0 {
      var shown := Take(opt, layout.optLimit);
      var lines := seq(|shown|, k requires 0 <= k < |shown| => OptionalLine(shown[k]));
      var part := ["", OptionalHeading] + lines + (if |opt| > layout.optLimit then [layout.moreOpt] else []);
      assert OptionalPart(opt, layout) == part;
      forall k | 0 <= k < |shown|
        ensures part[2 + k] == OptionalLine(opt[k])
      {
        assert part[2 + k] == lines[k];
      }
    }
  }

  /**
   * What a listing shows: the first required parameters in order, one per
   * line; the required marker exactly when the required list is longer than
   * its limit; the optional section exactly when there are optional
   * parameters, with the optional marker exactly when that list is too
   * long. The listing is empty exactly when both lists are, and never
   * longer than both limits plus four.
   */
  lemma ParamsLinesShape(req: seq<Param>, opt: seq<Param>, layout: Layout)
    ensures |ParamsLines(req, opt, layout)| ==
            RequiredPartLength(req, layout) + (if |opt| == 0 then 0 else 2 + Min(|opt|, layout.optLimit) + (if |opt| > layout.optLimit then 1 else 0))
    ensures forall k | 0 <= k < Min(|req|, layout.reqLimit) :: ParamsLines(req, opt, layout)[k] == RequiredLine(req[k])
    ensures |req| > layout.reqLimit ==> ParamsLines(req, opt, layout)[layout.reqLimit] == layout.moreReq
    ensures |opt| > 0 ==> ParamsLines(req, opt, layout)[RequiredPartLength(req, layout)] == ""
    ensures |opt| > 0 ==> ParamsLines(req, opt, layout)[RequiredPartLength(req, layout) + 1] == OptionalHeading
    ensures forall k | 0 <= k < Min(|opt|, layout.optLimit) ::
              ParamsLines(req, opt, layout)[RequiredPartLength(req, layout) + 2 + k] == OptionalLine(opt[k])
    ensures |opt| > layout.optLimit ==> ParamsLines(req, opt, layout)[|ParamsLines(req, opt, layout)| - 1] == layout.moreOpt
    ensures ParamsLines(req, opt, layout) == [] <==> |req| == 0 && |opt| == 0
    ensures |ParamsLines(req, opt, layout)| <= layout.reqLimit + layout.optLimit + 4
  {
    ListingLength(req, opt, layout);
    ListingRequired(req, opt, layout);
    ListingOptional(req, opt, layout);
  }

  lemma ListingLength(req: seq<Param>, opt: seq<Param>, layout: Layout)
    ensures |ParamsLines(req, opt, layout)| == RequiredPartLength(req, layout) + OptionalPartLength(opt, layout)
  {
    RequiredPartShape(req, layout);
    OptionalPartShape(opt, layout);
  }

  lemma ListingRequired(req: seq<Param>, opt: seq<Param>, layout: Layout)
    ensures forall k | 0 <= k < Min(|req|, layout.reqLimit) :: ParamsLines(req, opt, layout)[k] == RequiredLine(req[k])
    ensures |req| > layout.reqLimit ==> ParamsLines(req, opt, layout)[layout.reqLimit] == layout.moreReq
  {
    RequiredPartShape(req, layout);
    ConcatIndex(RequiredPart(req, layout), OptionalPart(opt, layout));
  }

  lemma ListingOptional(req: seq<Param>, opt: seq<Param>, layout: Layout)
    ensures |opt| > 0 ==> ParamsLines(req, opt, layout)[RequiredPartLength(req, layout)] == ""
    ensures |opt| > 0 ==> ParamsLines(req, opt, layout)[RequiredPartLength(req, layout) + 1] == OptionalHeading
    ensures forall k | 0 <= k < Min(|opt|, layout.optLimit) ::
              ParamsLines(req, opt, layout)[RequiredPartLength(req, layout) + 2 + k] == OptionalLine(opt[k])
    ensures |opt| > layout.optLimit ==>
              ParamsLines(req, opt, layout)[RequiredPartLength(req, layout) + OptionalPartLength(opt, layout) - 1] == layout.moreOpt
  {
    RequiredPartShape(req, layout);
    OptionalPartShape(opt, layout);
    ConcatIndex(RequiredPart(req, layout), OptionalPart(opt, layout));
  }

  lemma ConcatIndex(r: seq<string>, o: seq<string>)
    ensures |r + o| == |r| + |o|
    ensures forall k | 0 <= k < |r| :: (r + o)[k] == r[k]
    ensures forall k | 0 <= k < |o| :: (r + o)[|r| + k] == o[k]
  {
  }

  /** A required line is never a marker of either layout: it ends with a comma. */
  lemma RequiredLineNoMarker(p: Param)
    ensures RequiredLine(p) != MethodLayout.moreReq && RequiredLine(p) != ConstructorLayout.moreReq
  {
    var line := RequiredLine(p);
    assert line[|line| - 1] == ',';
  }

  /** Go's `Response` stands in for a method with no result type. */
  const DefaultResult: string := "Response"

  /**
   * The result type named in the snippet's last line: the mangled result
   * type; for a missing one the mangled default; for an empty one the
   * default as is.
   */
  function GoResult(e: Entry): string
  {
    match e.resultType
    case None => ToGoName(DefaultResult)
    case Some(rt) => if rt != "" then ToGoName(rt) else DefaultResult
  }

  /** A method takes positional arguments only with at most five required and no optional parameters. */
  predicate Positional(req: seq<Param>, opt: seq<Param>) {
    |req| <= 5 && |opt| == 0
  }

  function Values(ps: seq<Param>): (vs: seq<string>)
    ensures |vs| == |ps|
    ensures forall k | 0 <= k < |ps| :: vs[k] == ps[k].value
  {
    seq(|ps|, k requires 0 <= k < |ps| => ps[k].value)
  }

  const PositionalTitle: string := " - positional arguments"
  const ParamsTitle: string := " - using Params struct"

  /** The closing lines shared by both forms of a method call. */
  function ErrorCheck(result: string): seq<string> {
    ["if err != nil {", "    // handle error", "}", "// result is *tg." + result]
  }

  /** A method's snippet. */
  function MethodLines(g: string, req: seq<Param>, opt: seq<Param>, result: string): seq<string>
  {
    if Positional(req, opt) then
      ["// " + g + PositionalTitle,
       "result, err := client." + g + "(" + Join(Values(req), ", ") + ")"]
      + ErrorCheck(result)
    else
      ["// " + g + ParamsTitle,
       "result, err := client." + g + "(&tg." + g + "Params{"]
      + ParamsLines(req, opt, MethodLayout)
      + ["})"] + ErrorCheck(result)
  }

  /** A constructor's snippet: a literal spread over lines, or `{}` when it shows no field. */
  function ConstructorLines(g: string, req: seq<Param>, opt: seq<Param>): seq<string>
  {
    var listing := ParamsLines(req, opt, ConstructorLayout);
    if listing != [] then
      ["// Creating " + g + " constructor", "obj := &tg." + g + "{"] + listing + ["}"]
    else
      ["// Creating " + g + " constructor", "obj := &tg." + g + "{}"]
  }

  /**
   * `generate_gogram_example`, as lines: the display name (with `Obj` for
   * a constructor colliding with a type), the parameters from the fields,
   * then the method form for `method` and the constructor form otherwise.
   */
  function GogramLines(e: Entry, category: string, keys: set<string>, goTypes: set<string>, tables: Tables): seq<string>
  {
    var g := DisplayName(e.name, category, keys, goTypes);
    var req := ParamsOf(Kept(e.fields, false), tables);
    var opt := ParamsOf(Kept(e.fields, true), tables);
    if category == "method" then MethodLines(g, req, opt, GoResult(e))
    else ConstructorLines(g, req, opt)
  }

  /** The snippet as the page holds it. */
  function GogramExample(e: Entry, category: string, keys: set<string>, goTypes: set<string>, tables: Tables): string
  {
    Join(GogramLines(e, category, keys, goTypes, tables), "\n")
  }

  /**
   * Reading the snippet back line by line gives its lines, when no name or
   * example value holds a newline: in particular the `Params` form never
   * has an empty listing, so no stray blank line appears in it.
   */
  lemma ExampleLines(e: Entry, category: string, keys: set<string>, goTypes: set<string>, tables: Tables)
    requires var lines := GogramLines(e, category, keys, goTypes, tables);
             forall k | 0 <= k < |lines| :: '\n' !in lines[k]
    ensures Split(GogramExample(e, category, keys, goTypes, tables), '\n') == GogramLines(e, category, keys, goTypes, tables)
  {
    SplitJoin(GogramLines(e, category, keys, goTypes, tables), '\n');
  }

  /** The `Params` form always lists something, since it is chosen only when there is something to list. */
  lemma ParamsFormListsSomething(req: seq<Param>, opt: seq<Param>)
    requires !Positional(req, opt)
    ensures ParamsLines(req, opt, MethodLayout) != []
  {
    ParamsLinesShape(req, opt, MethodLayout);
  }

  /** The two titles of a method snippet never coincide. */
  lemma TitlesDiffer(g: string)
    ensures "// " + g + PositionalTitle != "// " + g + ParamsTitle
  {
    assert |PositionalTitle| != |ParamsTitle|;
  }

  /**
   * A method is called with positional arguments exactly when it has at
   * most five required and no optional parameters; its arguments are then
   * the values of its required parameters, in order.
   */
  lemma PositionalForm(g: string, req: seq<Param>, opt: seq<Param>, result: string)
    ensures var lines := MethodLines(g, req, opt, result);
            lines[0] == "// " + g + PositionalTitle <==> |req| <= 5 && |opt| == 0
    ensures |req| <= 5 && |opt| == 0 ==>
              exists args: seq<string> ::
                && |args| == |req|
                && (forall k | 0 <= k < |req| :: args[k] == req[k].value)
                && MethodLines(g, req, opt, result)[1] == "result, err := client." + g + "(" + Join(args, ", ") + ")"
  {
    TitlesDiffer(g);
    var args := Values(req);
    assert |args| == |req| && forall k | 0 <= k < |req| :: args[k] == req[k].value;
  }

  /**
   * For a method page: the positional form is chosen exactly when the
   * method has at most five required and no optional fields, under the
   * method's unsuffixed Go name, and each argument is the expanded example
   * of the corresponding required field.
   */
  lemma PositionalExactly(e: Entry, keys: set<string>, goTypes: set<string>, tables: Tables)
    ensures var lines := GogramLines(e, "method", keys, goTypes, tables);
            lines[0] == "// " + ToGoName(e.name) + PositionalTitle <==>
              |Kept(e.fields, false)| <= 5 && |Kept(e.fields, true)| == 0
    ensures var req := Kept(e.fields, false);
            |req| <= 5 && |Kept(e.fields, true)| == 0 ==>
              exists args: seq<string> ::
                && |args| == |req|
                && (forall k | 0 <= k < |req| :: args[k] == TypeExample(req[k].typ, false, true, tables))
                && GogramLines(e, "method", keys, goTypes, tables)[1] ==
                   "result, err := client." + ToGoName(e.name) + "(" + Join(args, ", ") + ")"
  {
    var g := ToGoName(e.name);
    MethodsUnsuffixed(e.name, keys, goTypes);
    var req := ParamsOf(Kept(e.fields, false), tables);
    var opt := ParamsOf(Kept(e.fields, true), tables);
    assert GogramLines(e, "method", keys, goTypes, tables) == MethodLines(g, req, opt, GoResult(e));
    PositionalForm(g, req, opt, GoResult(e));
  }

  /** A method's snippet has six lines in positional form, and at most twenty-three otherwise. */
  lemma MethodLineCount(e: Entry, keys: set<string>, goTypes: set<string>, tables: Tables)
    ensures var lines := GogramLines(e, "method", keys, goTypes, tables);
            var req, opt := Kept(e.fields, false), Kept(e.fields, true);
            && (|req| <= 5 && |opt| == 0 ==> |lines| == 6)
            && (!(|req| <= 5 && |opt| == 0) ==> 8 <= |lines| <= 23)
  {
    var req := ParamsOf(Kept(e.fields, false), tables);
    var opt := ParamsOf(Kept(e.fields, true), tables);
    ParamsLinesShape(req, opt, MethodLayout);
  }

  /**
   * A constructor's literal is written `{}` on one line exactly when it
   * has no parameter to show, and its snippet never exceeds seventeen lines.
   */
  lemma ConstructorShape(e: Entry, category: string, keys: set<string>, goTypes: set<string>, tables: Tables)
    requires category != "method"
    ensures var lines := GogramLines(e, category, keys, goTypes, tables);
            && (|lines| == 2 <==> |Kept(e.fields, false)| == 0 && |Kept(e.fields, true)| == 0)
            && 2 <= |lines| <= 17
  {
    var req := ParamsOf(Kept(e.fields, false), tables);
    var opt := ParamsOf(Kept(e.fields, true), tables);
    ParamsLinesShape(req, opt, ConstructorLayout);
  }

  /** Adding a flags field anywhere leaves the snippet as it was. */
  lemma FlagsFieldIgnored(e: Entry, i: nat, f: Field, category: string, keys: set<string>, goTypes: set<string>, tables: Tables)
    requires i <= |e.fields| && IsFlagsField(f)
    ensures GogramLines(e.(fields := e.fields[..i] + [f] + e.fields[i..]), category, keys, goTypes, tables) ==
            GogramLines(e, category, keys, goTypes, tables)
  {
    var a, b := e.fields[..i], e.fields[i..];
    assert e.fields == a + b;
    forall optional: bool
      ensures Kept(a + [f] + b, optional) == Kept(e.fields, optional)
    {
      KeptAppend(a + [f], b, optional);
      KeptAppend(a, [f], optional);
      KeptAppend(a, b, optional);
      assert Kept([f], optional) == Kept([], optional) + [] by {
        assert [f][..0] == [];
      }
    }
  }

  /** The Go name and value of every parameter come from its own field. */
  lemma ParamsFromFields(e: Entry, tables: Tables, optional: bool, k: nat)
    requires k < |Kept(e.fields, optional)|
    ensures var f := Kept(e.fields, optional)[k];
            && f in e.fields && KeptAs(f, optional)
            && ParamsOf(Kept(e.fields, optional), tables)[k] == Param(ToGoName(f.name), TypeExample(f.typ, false, true, tables))
  {
    var f := Kept(e.fields, optional)[k];
    KeptCounts(e.fields, optional);
    assert f in multiset(Kept(e.fields, optional));
  }
}

=== FILE: grouping.dfy ===
/**
 * Grouping a sequence into an insertion-ordered dictionary of lists, the
 * way `d.setdefault(key, []).append(x)` does: each element either has no
 * key (and is skipped) or is appended to the list under its key.
 */
module Grouping {

  import opened Maybe

  /** The elements filed under `k`, in their original order. */
  function GroupBy<T>(xs: seq<T>, key: T -> Option<string>, k: string): seq<T>
    decreases |xs|
  {
    if |xs| == 0 then []
    else
      var last := xs[|xs| - 1];
      GroupBy(xs[..|xs| - 1], key, k) + (if key(last) == Some(k) then [last] else [])
  }

  /** The keys, each once, in the order they are first met. */
  function KeysInOrder<T>(xs: seq<T>, key: T -> Option<string>): seq<string>
    decreases |xs|
  {
    if |xs| == 0 then []
    else
      var ks := KeysInOrder(xs[..|xs| - 1], key);
      var last := xs[|xs| - 1];
      if key(last).Some? && key(last).value !in ks then ks + [key(last).value] else ks
  }

  /** Some element is filed under `k`. */
  predicate HasKey<T>(xs: seq<T>, key: T -> Option<string>, k: string) {
    exists i | 0 <= i < |xs| :: key(xs[i]) == Some(k)
  }

  /** Appending one element extends its own group and no other. */
  lemma GroupStep<T>(xs: seq<T>, key: T -> Option<string>, x: T)
    ensures forall k :: GroupBy(xs + [x], key, k) == GroupBy(xs, key, k) + (if key(x) == Some(k) then [x] else [])
    ensures KeysInOrder(xs + [x], key) ==
            (if key(x).Some? && key(x).value !in KeysInOrder(xs, key) then KeysInOrder(xs, key) + [key(x).value]
             else KeysInOrder(xs, key))
  {
    assert (xs + [x])[..|xs|] == xs;
  }

  /** A key not yet met has an empty group. */
  lemma {:induction false} GroupAbsent<T>(xs: seq<T>, key: T -> Option<string>, k: string)
    requires k !in KeysInOrder(xs, key)
    ensures GroupBy(xs, key, k) == []
    decreases |xs|
  {
    if |xs| > 0 {
      var ks := KeysInOrder(xs[..|xs| - 1], key);
      assert forall y | y in ks :: y in KeysInOrder(xs, key);
      GroupAbsent(xs[..|xs| - 1], key, k);
    }
  }

  /**
   * Each element is filed exactly as often as it occurs, under its own key;
   * elements without a key are filed nowhere.
   */
  lemma {:induction false} GroupCounts<T>(xs: seq<T>, key: T -> Option<string>, k: string)
    ensures forall x :: multiset(GroupBy(xs, key, k))[x] == (if key(x) == Some(k) then multiset(xs)[x] else 0)
    decreases |xs|
  {
    if |xs| > 0 {
      var init, last := xs[..|xs| - 1], xs[|xs| - 1];
      GroupCounts(init, key, k);
      assert xs == init + [last];
    }
  }

  /** The listed keys are exactly the keys some element is filed under. */
  lemma {:induction false} KeysMembers<T>(xs: seq<T>, key: T -> Option<string>, k: string)
    ensures k in KeysInOrder(xs, key) <==> HasKey(xs, key, k)
    decreases |xs|
  {
    if |xs| > 0 {
      var init, last := xs[..|xs| - 1], xs[|xs| - 1];
      KeysMembers(init, key, k);
      if HasKey(init, key, k) {
        var i :| 0 <= i < |init| && key(init[i]) == Some(k);
        assert xs[i] == init[i];
      }
      if HasKey(xs, key, k) && key(last) != Some(k) {
        var i :| 0 <= i < |xs| && key(xs[i]) == Some(k);
        assert i < |init| && init[i] == xs[i];
      }
      if key(last) == Some(k) {
        assert xs[|xs| - 1] == last;
      }
    }
  }

  /** No key is listed twice. */
  lemma {:induction false} KeysDistinct<T>(xs: seq<T>, key: T -> Option<string>)
    ensures forall i, j | 0 <= i < j < |KeysInOrder(xs, key)| :: KeysInOrder(xs, key)[i] != KeysInOrder(xs, key)[j]
    decreases |xs|
  {
    if |xs| > 0 {
      KeysDistinct(xs[..|xs| - 1], key);
    }
  }

  /** The group under a listed key is never empty. */
  lemma {:induction false} GroupNonEmpty<T>(xs: seq<T>, key: T -> Option<string>, k: string)
    requires k in KeysInOrder(xs, key)
    ensures |GroupBy(xs, key, k)| > 0
    decreases |xs|
  {
    var init := xs[..|xs| - 1];
    if k in KeysInOrder(init, key) {
      GroupNonEmpty(init, key, k);
    }
  }

  /** The insertion-ordered dictionary: its keys in order, and the map. */
  datatype Groups<T> = Groups(order: seq<string>, groups: map<string, seq<T>>)

  /** The grouping loop itself. */
  method GroupAll<T>(xs: seq<T>, key: T -> Option<string>) returns (g: Groups<T>)
    ensures g.order == KeysInOrder(xs, key)
    ensures forall k :: k in g.groups <==> k in g.order
    ensures forall k | k in g.groups :: g.groups[k] == GroupBy(xs, key, k)
  {
    var order: seq<string> := [];
    var groups: map<string, seq<T>> := map[];
    for i := 0 to |xs|
      invariant order == KeysInOrder(xs[..i], key)
      invariant forall k :: k in groups <==> k in order
      invariant forall k | k in groups :: groups[k] == GroupBy(xs[..i], key, k)
    {
      var x := xs[i];
      assert xs[..i + 1] == xs[..i] + [x];
      GroupStep(xs[..i], key, x);
      match key(x)
      case None =>
      case Some(k) =>
        var current := if k in groups then groups[k] else [];
        if k !in groups {
          GroupAbsent(xs[..i], key, k);
          order := order + [k];
        }
        groups := groups[k := current + [x]];
    }
    assert xs[..|xs|] == xs;
    g := Groups(order, groups);
  }
}

=== FILE: paths.dfy ===
/**
 * Where the generator writes each page, how a page refers back to the site
 * root, and where a type reference in a signature links to.
 */
module Paths {

  import opened Maybe
  import opened Strings
  import opened TypeSyntax

  /**
   * The page of a constructor or method, relative to the site root: the
   * name is cut at its last `.` into a namespace directory and a file name.
   */
  function OutputPath(name: string, category: string): string
  {
    category + "s/" + PageStem(name) + ".html"
  }

  /** The page path without directory and extension: `ns/item` for `ns.item`, else the name. */
  function PageStem(name: string): string
  {
    match LastIndex(name, '.')
    case Some(j) => name[..j] + "/" + name[j + 1..]
    case None => name
  }

  /** The directory separator turned back into the namespace dot. */
  function Unslash(mid: string): string
  {
    match FirstIndex(mid, '/')
    case None => mid
    case Some(i) => mid[..i] + "." + mid[i + 1..]
  }

  /** Reads the name back out of a page path: the inverse of `OutputPath`. */
  function NameOfPath(path: string, category: string): Option<string>
  {
    var pre := category + "s/";
    if |pre| + 5 <= |path| && StartsWith(path, pre) && EndsWith(path, ".html") then
      Some(Unslash(path[|pre|..|path| - 5]))
    else
      None
  }

  lemma NameOfWrapped(category: string, mid: string)
    ensures NameOfPath(category + "s/" + mid + ".html", category) == Some(Unslash(mid))
  {
    var pre := category + "s/";
    var path := pre + mid + ".html";
    assert path[..|pre|] == pre;
    assert path[|path| - 5..] == ".html";
    assert path[|pre|..|path| - 5] == mid;
  }

  lemma UnslashJoined(ns: string, item: string)
    requires '/' !in ns
    ensures Unslash(ns + "/" + item) == ns + "." + item
  {
    var mid := ns + "/" + item;
    assert mid[..|ns|] == ns && mid[|ns|] == '/';
    assert FirstIndex(mid, '/') == Some(|ns|);
    assert mid[|ns| + 1..] == item;
  }

  lemma UnslashFlat(mid: string)
    requires '/' !in mid
    ensures Unslash(mid) == mid
  {
    assert FirstIndex(mid, '/') == None;
  }

  /** Every name without a `/` can be read back from its page path. */
  lemma PathRoundTrip(name: string, category: string)
    requires '/' !in name
    ensures NameOfPath(OutputPath(name, category), category) == Some(name)
  {
    NameOfWrapped(category, PageStem(name));
    StemRoundTrip(name);
  }

  lemma StemRoundTrip(name: string)
    requires '/' !in name
    ensures Unslash(PageStem(name)) == name
  {
    match LastIndex(name, '.')
    case Some(j) =>
      var ns, item := name[..j], name[j + 1..];
      assert '/' !in ns by {
        forall k | 0 <= k < |ns|
          ensures ns[k] != '/'
        {
          assert ns[k] == name[k];
        }
      }
      UnslashJoined(ns, item);
      assert ns + "." + item == name;
    case None =>
      UnslashFlat(name);
  }

  /** Distinct names without a `/` get distinct pages. */
  lemma PathsDistinct(a: string, b: string, category: string)
    requires '/' !in a && '/' !in b && a != b
    ensures OutputPath(a, category) != OutputPath(b, category)
  {
    PathRoundTrip(a, category);
    PathRoundTrip(b, category);
  }

  /**
   * The relative path from a page back to the site root: `.` for a page at
   * the root, otherwise one `..` per `/` in the page's path.
   */
  function RelativeRoot(path: string): string
  {
    var depth := Count(path, '/');
    if depth == 0 then "." else Join(Repeat("..", depth), "/")
  }

  /** Read as a path, the relative root climbs exactly one level per `/`. */
  lemma RootClimbsDepth(path: string)
    requires Count(path, '/') > 0
    ensures Split(RelativeRoot(path), '/') == Repeat("..", Count(path, '/'))
  {
    SplitJoin(Repeat("..", Count(path, '/')), '/');
  }

  /** `"/".join([".."] * d)` spelled out: `..` groups separated by `/`. */
  lemma {:induction false} DotDotChain(d: nat)
    requires d > 0
    ensures |Join(Repeat("..", d), "/")| == 3 * d - 1
    ensures forall i | 0 <= i < 3 * d - 1 :: Join(Repeat("..", d), "/")[i] == (if i % 3 == 2 then '/' else '.')
  {
    if d > 1 {
      DotDotChain(d - 1);
      var rest := Join(Repeat("..", d - 1), "/");
      assert Repeat("..", d)[1..] == Repeat("..", d - 1);
      assert Join(Repeat("..", d), "/") == ".." + "/" + rest;
      forall i | 3 <= i < 3 * d - 1
        ensures (".." + "/" + rest)[i] == (if i % 3 == 2 then '/' else '.')
      {
        assert (".." + "/" + rest)[i] == rest[i - 3];
      }
    }
  }

  /** A page path has one `/` after the category, plus those of its stem. */
  lemma CountPagePath(category: string, stem: string)
    ensures Count(category + "s/" + stem + ".html", '/') == Count(category, '/') + Count(stem, '/') + 1
  {
    CountAppend(category + "s/" + stem, ".html", '/');
    CountAppend(category + "s/", stem, '/');
    CountAppend(category, "s/", '/');
    assert Count(".html", '/') == 0 by { CountAbsent(".html", '/'); }
    assert Count("s/", '/') == 1;
  }

  /** The stem of a name without `/` has one `/` exactly when the name is dotted. */
  lemma CountStem(name: string)
    requires '/' !in name
    ensures Count(PageStem(name), '/') == if '.' in name then 1 else 0
  {
    match LastIndex(name, '.')
    case Some(j) =>
      var a, b := name[..j], name[j + 1..];
      assert '/' !in a && '/' !in b;
      CountAbsent(a, '/');
      CountAbsent(b, '/');
      CountAppend(a + "/", b, '/');
      CountAppend(a, "/", '/');
      assert Count("/", '/') == 1;
    case None =>
      CountAbsent(name, '/');
  }

  /**
   * A page of an undotted name sits one directory down and links back to
   * the root through `..`; a page of a dotted name sits two down, `../..`.
   */
  lemma PageRoot(name: string, category: string)
    requires '/' !in name && '/' !in category
    ensures '.' !in name ==> RelativeRoot(OutputPath(name, category)) == ".."
    ensures '.' in name ==> RelativeRoot(OutputPath(name, category)) == "../.."
  {
    CountAbsent(category, '/');
    CountPagePath(category, PageStem(name));
    CountStem(name);
    if '.' in name {
      assert Repeat("..", 2) == ["..", ".."];
      assert Join(["..", ".."], "/") == ".." + "/" + Join([".."], "/");
    } else {
      assert Repeat("..", 1) == [".."];
    }
  }

  /** The types the generator never links: its primitives. */
  predicate IsPrimitive(t: string) {
    t in {"int", "long", "double", "string", "bytes", "true", "Bool", "#", "Object"}
  }

  /**
   * How one type reference is shown in a signature: as plain text, as a
   * `Vector&lt;...&gt;` around the element type's reference, or as the
   * visible marker followed by a link whose text is the type.
   */
  datatype Link =
    | Text(text: string)
    | Vector(element: Link)
    | Anchor(prefix: string, href: string, target: string)

  /**
   * The link target of a non-primitive, non-vector type: its type page when
   * it is a key of the type map, else the constructor page, namespaced when
   * dotted. (The source tests the type map a second time in the undotted
   * case; that test can no longer succeed there and is folded away.)
   */
  function Href(clean: string, root: string, typeKeys: set<string>): string
  {
    if clean in typeKeys then root + "/types/" + clean + ".html"
    else root + "/constructors/" + PageStem(clean) + ".html"
  }

  /** A link to a constructor lands on the page the generator writes for it. */
  lemma HrefIsConstructorPage(clean: string, root: string, typeKeys: set<string>)
    requires clean !in typeKeys
    ensures Href(clean, root, typeKeys) == root + "/" + OutputPath(clean, "constructor")
  {
    var stem := PageStem(clean);
    assert "/" + ("constructor" + "s/" + stem + ".html") == "/constructors/" + stem + ".html";
  }

  /** Where the page of a type-map key is written: `types/<key>.html`, the key as is. */
  function TypePagePath(typeName: string): string
  {
    "types/" + typeName + ".html"
  }

  /** A link to a type-map key lands on the page the generator writes for that type. */
  lemma HrefIsTypePage(clean: string, root: string, typeKeys: set<string>)
    requires clean in typeKeys
    ensures Href(clean, root, typeKeys) == root + "/" + TypePagePath(clean)
  {
    assert "/" + ("types/" + clean + ".html") == "/types/" + clean + ".html";
  }

  /**
   * The visible text in front of the link: the `flags.N?` marker that was
   * stripped. The source computes it as the text before the first
   * occurrence of the stripped name, which is not always the marker; see
   * `PrefixAsWritten`.
   */
  function MarkerOf(typeName: string): (p: string)
    ensures p + StripFlags(typeName) == typeName
  {
    typeName[..FlagsPrefixLen(typeName)]
  }

  /** The source's `type_name[:type_name.index(clean_name)]`. */
  function PrefixAsWritten(typeName: string, clean: string): string
    requires Contains(typeName, clean)
  {
    typeName[..IndexOf(typeName, clean).value]
  }

  /** In `flags.0?s` the name `s` already occurs inside the marker, at `flag|s`. */
  lemma PrefixAsWrittenCutsMarker(t: string)
    requires t == "flags.0?s"
    ensures Contains(t, "s") && StripFlags(t) == "s"
    ensures PrefixAsWritten(t, "s") == "flag"
    ensures PrefixAsWritten(t, "s") + StripFlags(t) != t
    ensures MarkerOf(t) == "flags.0?"
  {
    assert MarkerAt(t, 8) by {
      assert t[..8] == "flags.0?";
      assert StartsWith(t[..8], "flags.");
    }
    assert FlagsPrefixLen(t) == 8;
    assert OccursAt(t, "s", 4) by { assert t[4..5] == "s"; }
    var r := IndexOf(t, "s");
    assert r.Some?;
    assert r.value <= 4;
    NoEarlierS(t);
    assert r.value == 4;
  }

  lemma NoEarlierS(t: string)
    requires t == "flags.0?s"
    ensures forall i: nat | i < 4 :: !OccursAt(t, "s", i)
  {
    forall i: nat | i < 4
      ensures !OccursAt(t, "s", i)
    {
      assert t[i] != 's';
      assert t[i..i + 1][0] == t[i];
    }
  }

  /** Where the marker is the first place the name occurs, both prefixes agree. */
  lemma PrefixAsWrittenAgrees(typeName: string)
    requires forall i: nat | i < FlagsPrefixLen(typeName) :: !OccursAt(typeName, StripFlags(typeName), i)
    ensures Contains(typeName, StripFlags(typeName))
    ensures PrefixAsWritten(typeName, StripFlags(typeName)) == MarkerOf(typeName)
  {
    var n := FlagsPrefixLen(typeName);
    assert OccursAt(typeName, StripFlags(typeName), n);
  }

  /**
   * `make_link`: how the type reference `typeName` is shown on a page whose
   * relative root is `root`, given the keys of the type map.
   */
  function MakeLink(typeName: string, root: string, typeKeys: set<string>): (l: Link)
    decreases |typeName|
  {
    var clean := StripFlags(typeName);
    if IsPrimitive(clean) || StartsWith(clean, "flags") then Text(typeName)
    else
      match VectorInner(clean)
      case Some(inner) => Vector(MakeLink(inner, root, typeKeys))
      case None => Anchor(MarkerOf(typeName), Href(clean, root, typeKeys), clean)
  }

  /** The text a link shows, with `Vector<...>` spelled out. */
  function Shown(l: Link): string
  {
    match l
    case Text(t) => t
    case Vector(e) => "Vector<" + Shown(e) + ">"
    case Anchor(p, _, target) => p + target
  }

  /**
   * References whose vectors carry no marker and end at their closing `>`,
   * all the way down.
   */
  predicate ShownVerbatim(t: string)
    decreases |t|
  {
    var clean := StripFlags(t);
    || IsPrimitive(clean)
    || StartsWith(clean, "flags")
    || match VectorInner(clean)
       case None => true
       case Some(inner) => FlagsPrefixLen(t) == 0 && |inner| + 8 == |t| && ShownVerbatim(inner)
  }

  /** Such a reference shows exactly the type as written. */
  lemma {:induction false} ShownType(t: string, root: string, typeKeys: set<string>)
    requires ShownVerbatim(t)
    ensures Shown(MakeLink(t, root, typeKeys)) == t
    decreases |t|
  {
    var clean := StripFlags(t);
    if !(IsPrimitive(clean) || StartsWith(clean, "flags")) {
      match VectorInner(clean)
      case Some(inner) =>
        ShownType(inner, root, typeKeys);
      case None =>
    }
  }

  /** A flagged vector loses its marker: only the vector is shown. */
  lemma VectorDropsMarker(typeName: string, root: string, typeKeys: set<string>)
    requires VectorInner(StripFlags(typeName)).Some?
    requires !StartsWith(StripFlags(typeName), "flags")
    ensures MakeLink(typeName, root, typeKeys) ==
            Vector(MakeLink(VectorInner(StripFlags(typeName)).value, root, typeKeys))
    ensures FlagsPrefixLen(typeName) > 0 ==> Shown(MakeLink(typeName, root, typeKeys)) != typeName
  {
    var clean := StripFlags(typeName);
    assert !IsPrimitive(clean) by {
      assert |clean| >= 8 && clean[..7] == "Vector<";
    }
  }

  /** Primitives and names starting with `flags` are shown as written, unlinked. */
  lemma PrimitiveUnlinked(typeName: string, root: string, typeKeys: set<string>)
    requires IsPrimitive(StripFlags(typeName)) || StartsWith(StripFlags(typeName), "flags")
    ensures MakeLink(typeName, root, typeKeys) == Text(typeName)
  {
  }

  /** Any other non-vector reference is one link labelled with the bare type, marker kept in front. */
  lemma NamedLinked(typeName: string, root: string, typeKeys: set<string>)
    requires !IsPrimitive(StripFlags(typeName)) && !StartsWith(StripFlags(typeName), "flags")
    requires VectorInner(StripFlags(typeName)).None?
    ensures MakeLink(typeName, root, typeKeys) ==
            Anchor(MarkerOf(typeName), Href(StripFlags(typeName), root, typeKeys), StripFlags(typeName))
    ensures Shown(MakeLink(typeName, root, typeKeys)) == typeName
  {
  }
}

=== FILE: schema.dfy ===
/**
 * Reading the TL schema for the names it declares (`parse_schema_file`)
 * and reading a method page for who may call the method
 * (`can_be_used_by`).
 */
module Schema {

  import opened Maybe
  import opened Strings

  predicate IsIdentStart(c: char) {
    IsAlpha(c) || c == '_'
  }

  /** Length of the identifier `[a-zA-Z_][a-zA-Z0-9_]*` starting at `i`, or 0 if there is none. */
  function IdentLen(s: string, i: nat): (n: nat)
    requires i <= |s|
    ensures i + n <= |s|
    ensures n > 0 ==> IsIdentStart(s[i]) && forall k | i <= k < i + n :: IsWordChar(s[k])
    ensures n > 0 ==> i + n == |s| || !IsWordChar(s[i + n])
    ensures n == 0 <==> i == |s| || !IsIdentStart(s[i])
  {
    if i < |s| && IsIdentStart(s[i]) then 1 + Run(s, i + 1, IsWordChar) else 0
  }

  /**
   * The name a declaration line starts with: the pattern
   * `^([a-zA-Z_][a-zA-Z0-9_]*(?:\.[a-zA-Z_][a-zA-Z0-9_]*)?)#[0-9a-fA-F]+` read left to right.
   * Both identifiers are maximal, so the match never needs to backtrack.
   */
  function DeclName(line: string): Option<string>
  {
    var a := IdentLen(line, 0);
    if a == 0 then None
    else
      var b := if a < |line| && line[a] == '.' then IdentLen(line, a + 1) else 0;
      var n := if b > 0 then a + 1 + b else a;
      if n + 1 < |line| && line[n] == '#' && IsHexDigit(line[n + 1]) then Some(line[..n]) else None
  }

  predicate IsIdent(w: string) {
    |w| > 0 && IsIdentStart(w[0]) && forall k | 0 <= k < |w| :: IsWordChar(w[k])
  }

  /** An identifier, or two joined by one dot. */
  predicate IsQualifiedName(n: string) {
    IsIdent(n) || exists j | 0 < j < |n| :: n[j] == '.' && IsIdent(n[..j]) && IsIdent(n[j + 1..])
  }

  /** The line declares `name`: it starts with the name, `#` and a hexadecimal digit. */
  predicate DeclaresAs(line: string, name: string) {
    && IsQualifiedName(name)
    && |name| + 1 < |line|
    && line[..|name|] == name
    && line[|name|] == '#'
    && IsHexDigit(line[|name| + 1])
  }

  /** The scanner finds exactly the name the pattern describes. */
  lemma DeclNameExactly(line: string, name: string)
    ensures DeclName(line) == Some(name) <==> DeclaresAs(line, name)
  {
    if DeclName(line) == Some(name) {
      DeclNameSound(line);
    }
    if DeclaresAs(line, name) {
      DeclNameComplete(line, name);
    }
  }

  lemma DeclNameSound(line: string)
    requires DeclName(line).Some?
    ensures DeclaresAs(line, DeclName(line).value)
  {
    var a := IdentLen(line, 0);
    var b := if a < |line| && line[a] == '.' then IdentLen(line, a + 1) else 0;
    var n := if b > 0 then a + 1 + b else a;
    var name := line[..n];
    assert IsIdent(line[..a]);
    if b > 0 {
      assert name[..a] == line[..a];
      assert name[a + 1..] == line[a + 1..n];
      assert IsIdent(name[a + 1..]);
    } else {
      assert name == line[..a];
    }
  }

  lemma DeclNameComplete(line: string, name: string)
    requires DeclaresAs(line, name)
    ensures DeclName(line) == Some(name)
  {
    if IsIdent(name) {
      PlainNameFound(line, name);
    } else {
      var j :| 0 < j < |name| && name[j] == '.' && IsIdent(name[..j]) && IsIdent(name[j + 1..]);
      DottedNameFound(line, name, j);
    }
  }

  /** An identifier at the head of `s` followed by a non-word character is scanned whole. */
  lemma IdentAt(s: string, i: nat, w: string)
    requires i + |w| < |s| && s[i..i + |w|] == w && IsIdent(w) && !IsWordChar(s[i + |w|])
    ensures IdentLen(s, i) == |w|
  {
    assert forall k | i + 1 <= k < i + |w| :: s[k] == w[k - i];
    RunExact(s, i + 1, IsWordChar, |w| - 1);
  }

  lemma PlainNameFound(line: string, name: string)
    requires |name| + 1 < |line| && line[..|name|] == name && line[|name|] == '#' && IsHexDigit(line[|name| + 1])
    requires IsIdent(name)
    ensures DeclName(line) == Some(name)
  {
    assert line[0..|name|] == name;
    IdentAt(line, 0, name);
  }

  lemma DottedNameFound(line: string, name: string, j: nat)
    requires |name| + 1 < |line| && line[..|name|] == name && line[|name|] == '#' && IsHexDigit(line[|name| + 1])
    requires 0 < j < |name| && name[j] == '.' && IsIdent(name[..j]) && IsIdent(name[j + 1..])
    ensures DeclName(line) == Some(name)
  {
    assert line[0..j] == name[..j];
    assert line[j] == '.';
    IdentAt(line, 0, name[..j]);
    assert line[j + 1..j + 1 + |name[j + 1..]|] == name[j + 1..];
    IdentAt(line, j + 1, name[j + 1..]);
  }

  const FunctionsMarker: string := "---functions---"
  const TypesMarker: string := "---types---"

  /** What a line is, after stripping. */
  datatype LineKind = Skipped | FunctionsStart | TypesStart | Declaration(name: string) | Other

  /** The tests of the loop body, in the source's order. */
  function Classify(raw: string): LineKind
  {
    var line := Strip(raw);
    if line == "" || StartsWith(line, "//") then Skipped
    else if line == FunctionsMarker then FunctionsStart
    else if line == TypesMarker then TypesStart
    else
      match DeclName(line)
      case Some(name) => Declaration(name)
      case None => Other
  }

  /** A line is a declaration exactly when its stripped text declares that name. */
  lemma ClassifyDeclaration(raw: string, name: string)
    ensures Classify(raw) == Declaration(name) <==> DeclaresAs(Strip(raw), name)
  {
    var line := Strip(raw);
    DeclNameExactly(line, name);
    if DeclaresAs(line, name) {
      assert line[0] == name[0] && IsIdentStart(name[0]);
      assert line != FunctionsMarker && line != TypesMarker && !StartsWith(line, "//");
    }
  }

  /** The kind of every line, in order. */
  function Kinds(lines: seq<string>): (ks: seq<LineKind>)
    ensures |ks| == |lines|
    ensures forall k | 0 <= k < |lines| :: ks[k] == Classify(lines[k])
  {
    seq(|lines|, k requires 0 <= k < |lines| => Classify(lines[k]))
  }

  lemma KindsAppend(a: seq<string>, b: seq<string>)
    ensures Kinds(a + b) == Kinds(a) + Kinds(b)
  {
  }

  lemma MarkerLine(marker: string)
    requires Strip(marker) == FunctionsMarker
    ensures Classify(marker) == FunctionsStart
  {
    var line := Strip(marker);
    assert line[0] == '-' && line[1] == '-';
    assert !StartsWith(line, "//");
  }

  /** The state of the scan: the names so far and the current section. */
  datatype ParseState = ParseState(constructors: seq<string>, methods: seq<string>, inFunctions: bool)

  const Start: ParseState := ParseState([], [], false)

  /** One pass of the loop body: a marker switches the section, a declaration adds its name to it. */
  function Step(st: ParseState, kind: LineKind): ParseState
  {
    match kind
    case Skipped => st
    case FunctionsStart => st.(inFunctions := true)
    case TypesStart => st.(inFunctions := false)
    case Declaration(name) =>
      if st.inFunctions then st.(methods := st.methods + [name])
      else st.(constructors := st.constructors + [name])
    case Other => st
  }

  /** The scan over classified lines from state `st`. */
  function Scan(st: ParseState, kinds: seq<LineKind>): ParseState
    decreases |kinds|
  {
    if |kinds| == 0 then st else Scan(Step(st, kinds[0]), kinds[1..])
  }

  lemma {:induction false} ScanAppend(st: ParseState, a: seq<LineKind>, b: seq<LineKind>)
    ensures Scan(st, a + b) == Scan(Scan(st, a), b)
    decreases |a|
  {
    if |a| > 0 {
      assert (a + b)[0] == a[0];
      assert (a + b)[1..] == a[1..] + b;
      ScanAppend(Step(st, a[0]), a[1..], b);
    } else {
      assert a + b == b;
    }
  }

  lemma ScanOne(st: ParseState, kind: LineKind)
    ensures Scan(st, [kind]) == Step(st, kind)
  {
    assert [kind][1..] == [];
  }

  /** What the parser leaves after `lines`. */
  function Parse(lines: seq<string>): ParseState
  {
    Scan(Start, Kinds(lines))
  }

  /**
   * `parse_schema_file`: the constructor names and the method names, in
   * the order declared. The file's lines are given as a sequence.
   */
  method ParseSchema(lines: seq<string>) returns (constructors: seq<string>, methods: seq<string>)
    ensures constructors == Parse(lines).constructors
    ensures methods == Parse(lines).methods
  {
    var st := ScanLines(Kinds(lines));
    constructors, methods := st.constructors, st.methods;
  }

  /** The line loop of `parse_schema_file`, over the already classified lines. */
  method ScanLines(kinds: seq<LineKind>) returns (st: ParseState)
    ensures st == Scan(Start, kinds)
  {
    st := Start;
    for i := 0 to |kinds|
      invariant st == Scan(Start, kinds[..i])
    {
      ScanSnoc(kinds, i);
      st := Step(st, kinds[i]);
    }
    assert kinds[..|kinds|] == kinds;
  }

  lemma ScanSnoc(kinds: seq<LineKind>, i: nat)
    requires i < |kinds|
    ensures Scan(Start, kinds[..i + 1]) == Step(Scan(Start, kinds[..i]), kinds[i])
  {
    assert kinds[..i + 1] == kinds[..i] + [kinds[i]];
    ScanAppend(Start, kinds[..i], [kinds[i]]);
    ScanOne(Scan(Start, kinds[..i]), kinds[i]);
  }

  /** The declared names, in order, whatever section they are in. */
  function Declared(kinds: seq<LineKind>): seq<string>
    decreases |kinds|
  {
    if |kinds| == 0 then []
    else (if kinds[0].Declaration? then [kinds[0].name] else []) + Declared(kinds[1..])
  }

  /** No line is a section marker. */
  predicate Unmarked(kinds: seq<LineKind>) {
    forall k | 0 <= k < |kinds| :: !kinds[k].FunctionsStart? && !kinds[k].TypesStart?
  }

  /** Within a section, every declared name is appended to that section's list, in order. */
  lemma {:induction false} ScanSection(st: ParseState, kinds: seq<LineKind>)
    requires Unmarked(kinds)
    ensures Scan(st, kinds).inFunctions == st.inFunctions
    ensures st.inFunctions ==> Scan(st, kinds) == st.(methods := st.methods + Declared(kinds))
    ensures !st.inFunctions ==> Scan(st, kinds) == st.(constructors := st.constructors + Declared(kinds))
    decreases |kinds|
  {
    if |kinds| > 0 {
      var rest := kinds[1..];
      assert Unmarked(rest) by {
        assert forall k | 0 <= k < |rest| :: rest[k] == kinds[k + 1];
      }
      ScanSection(Step(st, kinds[0]), rest);
      var d := if kinds[0].Declaration? then [kinds[0].name] else [];
      assert Declared(kinds) == d + Declared(rest);
      assert st.methods + Declared(kinds) == st.methods + d + Declared(rest);
      assert st.constructors + Declared(kinds) == st.constructors + d + Declared(rest);
    }
  }

  /**
   * A schema laid out as the official one is — type declarations, the
   * functions marker, function declarations — yields the declarations
   * before the marker as constructors and those after it as methods.
   */
  lemma TwoSections(types: seq<string>, marker: string, functions: seq<string>)
    requires Unmarked(Kinds(types)) && Unmarked(Kinds(functions))
    requires Strip(marker) == FunctionsMarker
    ensures Parse(types + [marker] + functions).constructors == Declared(Kinds(types))
    ensures Parse(types + [marker] + functions).methods == Declared(Kinds(functions))
  {
    var kt, kf := Kinds(types), Kinds(functions);
    MarkerLine(marker);
    KindsAppend(types + [marker], functions);
    KindsAppend(types, [marker]);
    assert Kinds([marker]) == [FunctionsStart];
    ScanAppend(Start, kt + [FunctionsStart], kf);
    ScanAppend(Start, kt, [FunctionsStart]);
    ScanSection(Start, kt);
    var afterTypes := Scan(Start, kt);
    ScanOne(afterTypes, FunctionsStart);
    ScanSection(afterTypes.(inFunctions := true), kf);
  }

  /** Every declaration line gives exactly one name, to one of the two lists. */
  lemma {:induction false} EveryDeclarationCounted(st: ParseState, kinds: seq<LineKind>)
    ensures |Scan(st, kinds).constructors| + |Scan(st, kinds).methods| ==
            |st.constructors| + |st.methods| + |Declared(kinds)|
    decreases |kinds|
  {
    if |kinds| > 0 {
      EveryDeclarationCounted(Step(st, kinds[0]), kinds[1..]);
    }
  }

  /** The parser returns one name per declaration line, and no more names than lines. */
  lemma ParseCounts(lines: seq<string>)
    ensures |Parse(lines).constructors| + |Parse(lines).methods| == |Declared(Kinds(lines))| <= |lines|
  {
    EveryDeclarationCounted(Start, Kinds(lines));
    DeclaredBound(Kinds(lines));
  }

  lemma {:induction false} DeclaredBound(kinds: seq<LineKind>)
    ensures |Declared(kinds)| <= |kinds|
    decreases |kinds|
  {
    if |kinds| > 0 {
      DeclaredBound(kinds[1..]);
    }
  }

  /** Every name the scan adds comes from a declaration line. */
  lemma {:induction false} NamesDeclared(st: ParseState, kinds: seq<LineKind>, name: string)
    requires name in Scan(st, kinds).constructors || name in Scan(st, kinds).methods
    ensures name in st.constructors || name in st.methods || Declaration(name) in kinds
    decreases |kinds|
  {
    if |kinds| > 0 {
      NamesDeclared(Step(st, kinds[0]), kinds[1..], name);
    }
  }

  /** Every name the parser returns is a qualified identifier that some line declares. */
  lemma NamesWellFormed(lines: seq<string>, name: string)
    requires name in Parse(lines).constructors || name in Parse(lines).methods
    ensures IsQualifiedName(name)
    ensures exists k | 0 <= k < |lines| :: DeclaresAs(Strip(lines[k]), name)
  {
    NamesDeclared(Start, Kinds(lines), name);
    var k :| 0 <= k < |lines| && Kinds(lines)[k] == Declaration(name);
    ClassifyDeclaration(lines[k], name);
  }

  /** Blank lines and comments can be added anywhere without changing the result. */
  lemma SkippedLineIgnored(a: seq<string>, line: string, b: seq<string>)
    requires Classify(line) == Skipped
    ensures Parse(a + [line] + b) == Parse(a + b)
  {
    var ka, kb := Kinds(a), Kinds(b);
    KindsAppend(a + [line], b);
    KindsAppend(a, [line]);
    KindsAppend(a, b);
    assert Kinds([line]) == [Skipped];
    ScanAppend(Start, ka + [Skipped], kb);
    ScanAppend(Start, ka, [Skipped]);
    ScanAppend(Start, ka, kb);
    ScanOne(Scan(Start, ka), Skipped);
  }

  /** Some functions marker is followed by no types marker. */
  predicate FunctionsLast(kinds: seq<LineKind>) {
    exists i | 0 <= i < |kinds| :: kinds[i].FunctionsStart? && forall j | i < j < |kinds| :: !kinds[j].TypesStart?
  }

  predicate NoTypesMarker(kinds: seq<LineKind>) {
    forall j | 0 <= j < |kinds| :: !kinds[j].TypesStart?
  }

  /**
   * The section after a scan is the one the last marker opened: functions
   * exactly when some functions marker is followed by no types marker, or
   * when the scan started there and met no types marker.
   */
  lemma {:induction false} SectionIsLastMarker(st: ParseState, kinds: seq<LineKind>)
    ensures Scan(st, kinds).inFunctions <==> FunctionsLast(kinds) || (st.inFunctions && NoTypesMarker(kinds))
    decreases |kinds|
  {
    if |kinds| > 0 {
      var rest := kinds[1..];
      SectionIsLastMarker(Step(st, kinds[0]), rest);
      assert forall j | 1 <= j < |kinds| :: kinds[j] == rest[j - 1];
      if FunctionsLast(rest) {
        var i :| 0 <= i < |rest| && rest[i].FunctionsStart? && forall j | i < j < |rest| :: !rest[j].TypesStart?;
        assert kinds[i + 1].FunctionsStart?;
      }
    }
  }

  /** The parser is in the functions section after `lines` exactly when the last marker among them opened it. */
  lemma ParseSection(lines: seq<string>)
    ensures Parse(lines).inFunctions <==> FunctionsLast(Kinds(lines))
  {
    SectionIsLastMarker(Start, Kinds(lines));
  }

  const BothCanUse: string := "Both users and bots can use this method"
  const OnlyUsersCanUse: string := "Only users can use this method"
  const OnlyBotsCanUse: string := "Only bots can use this method"
  const BotsCanUse: string := "Bots can use this method"

  /**
   * `can_be_used_by`, read off a method page's text: the first of the four
   * sentences found decides; with none of them the list stays empty.
   */
  function CanBeUsedBy(page: string): (r: seq<string>)
    ensures "users" in r <==> Contains(page, BothCanUse) || Contains(page, OnlyUsersCanUse)
    ensures "bots" in r <==>
              Contains(page, BothCanUse) ||
              (!Contains(page, OnlyUsersCanUse) && (Contains(page, OnlyBotsCanUse) || Contains(page, BotsCanUse)))
    ensures forall x | x in r :: x == "users" || x == "bots"
    ensures |r| <= 2 && (|r| == 2 ==> r[0] != r[1])
  {
    if Contains(page, BothCanUse) then ["users", "bots"]
    else if Contains(page, OnlyUsersCanUse) then ["users"]
    else if Contains(page, OnlyBotsCanUse) then ["bots"]
    else if Contains(page, BotsCanUse) then [] + ["bots"]
    else []
  }
}

=== FILE: strings.dfy ===
/** The optional-value wrapper used across the model. */
module Maybe {

  datatype Option<+T> = None | Some(value: T)
}

/**
 * Character classes and the handful of Python `str` operations the
 * documentation generator relies on. Letters, digits and case mapping are
 * ASCII; whitespace is Python's full `str.isspace` set, as `str.strip()` uses.
 */
module Strings {

  import opened Maybe

  predicate IsUpper(c: char) { 'A' <= c <= 'Z' }
  predicate IsLower(c: char) { 'a' <= c <= 'z' }
  predicate IsDigit(c: char) { '0' <= c <= '9' }
  predicate IsAlpha(c: char) { IsUpper(c) || IsLower(c) }
  predicate IsAlnum(c: char) { IsAlpha(c) || IsDigit(c) }
  predicate IsHexDigit(c: char) { IsDigit(c) || 'a' <= c <= 'f' || 'A' <= c <= 'F' }

  /** The regular-expression class `\w`: letters, digits and the underscore. */
  predicate IsWordChar(c: char) { IsAlnum(c) || c == '_' }

  /** Python's `str.isspace`, the set `str.strip()` removes. */
  predicate IsSpace(c: char) {
    || '\t' <= c <= '\r'
    || '\U{1c}' <= c <= ' '
    || c == '\U{85}' || c == '\U{a0}' || c == '\U{1680}'
    || '\U{2000}' <= c <= '\U{200a}'
    || c == '\U{2028}' || c == '\U{2029}' || c == '\U{202f}'
    || c == '\U{205f}' || c == '\U{3000}'
  }

  function Upper(c: char): (u: char)
    ensures IsAlpha(c) ==> IsUpper(u) && Lower(u) == Lower(c)
    ensures !IsAlpha(c) ==> u == c
  {
    if IsLower(c) then (c as int - 32) as char else c
  }

  function Lower(c: char): (l: char)
    ensures IsAlpha(c) ==> IsLower(l)
    ensures !IsAlpha(c) ==> l == c
  {
    if IsUpper(c) then (c as int + 32) as char else c
  }

  function LowerAll(s: string): (r: string)
    ensures |r| == |s|
    ensures forall k | 0 <= k < |s| :: r[k] == Lower(s[k])
  {
    seq(|s|, k requires 0 <= k < |s| => Lower(s[k]))
  }

  /** Python's `str.capitalize()`: first character upper case, the rest lower case. */
  function Capitalize(w: string): (r: string)
    ensures |r| == |w|
    ensures LowerAll(r) == LowerAll(w)
    ensures |w| > 0 && IsAlpha(w[0]) ==> IsUpper(r[0])
    ensures forall k | 1 <= k < |w| && IsAlpha(w[k]) :: IsLower(r[k])
    ensures forall k | 0 <= k < |w| && !IsAlpha(w[k]) :: r[k] == w[k]
  {
    if |w| == 0 then "" else [Upper(w[0])] + LowerAll(w[1..])
  }

  /** Length of the longest run of characters satisfying `p` that starts at `j`. */
  function Run(s: string, j: nat, p: char -> bool): (n: nat)
    requires j <= |s|
    ensures j + n <= |s|
    ensures forall k | j <= k < j + n :: p(s[k])
    ensures j + n == |s| || !p(s[j + n])
    decreases |s| - j
  {
    if j < |s| && p(s[j]) then 1 + Run(s, j + 1, p) else 0
  }

  /** A run is determined by where the predicate first fails. */
  lemma RunExact(s: string, j: nat, p: char -> bool, n: nat)
    requires j + n <= |s|
    requires forall k | j <= k < j + n :: p(s[k])
    requires j + n == |s| || !p(s[j + n])
    ensures Run(s, j, p) == n
  {
  }

  predicate StartsWith(s: string, prefix: string) {
    |prefix| <= |s| && s[..|prefix|] == prefix
  }

  predicate EndsWith(s: string, suffix: string) {
    |suffix| <= |s| && s[|s| - |suffix|..] == suffix
  }

  /** `sub` occurs in `s` starting at position `i`. */
  predicate OccursAt(s: string, sub: string, i: nat) {
    i + |sub| <= |s| && s[i..i + |sub|] == sub
  }

  /** Python's `sub in s`. */
  function Contains(s: string, sub: string): (b: bool)
    ensures b <==> exists i: nat :: OccursAt(s, sub, i)
    decreases |s|
  {
    if StartsWith(s, sub) then
      assert OccursAt(s, sub, 0);
      true
    else if |s| == 0 then false
    else
      ShiftWindows(s, sub);
      Contains(s[1..], sub)
  }

  /** The occurrences in `s[1..]` are those in `s` that start after position 0. */
  lemma ShiftWindows(s: string, sub: string)
    requires |s| > 0
    ensures forall i: nat :: OccursAt(s[1..], sub, i) <==> OccursAt(s, sub, i + 1)
    ensures forall i: nat | 0 < i :: OccursAt(s, sub, i) <==> OccursAt(s[1..], sub, i - 1)
    ensures OccursAt(s, sub, 0) <==> StartsWith(s, sub)
  {
    forall i: nat
      ensures OccursAt(s[1..], sub, i) <==> OccursAt(s, sub, i + 1)
    {
      if i + |sub| <= |s| - 1 {
        assert s[1..][i..i + |sub|] == s[i + 1..i + 1 + |sub|];
      }
    }
  }

  /** Index of the first occurrence of `sub` in `s` (Python's `str.index`). */
  function IndexOf(s: string, sub: string): (r: Option<nat>)
    ensures r.Some? ==> OccursAt(s, sub, r.value)
    ensures r.Some? ==> forall i: nat | i < r.value :: !OccursAt(s, sub, i)
    ensures r.None? <==> !Contains(s, sub)
    decreases |s|
  {
    if StartsWith(s, sub) then Some(0)
    else if |s| == 0 then None
    else
      ShiftWindows(s, sub);
      match IndexOf(s[1..], sub)
      case None => None
      case Some(i) => Some(i + 1)
  }

  /** Index of the first `c` in `s`. */
  function FirstIndex(s: string, c: char): (r: Option<nat>)
    ensures r.Some? ==> r.value < |s| && s[r.value] == c && c !in s[..r.value]
    ensures r.None? <==> c !in s
    decreases |s|
  {
    if |s| == 0 then None
    else if s[0] == c then Some(0)
    else
      match FirstIndex(s[1..], c)
      case None => None
      case Some(i) =>
        assert s[..i + 1] == [s[0]] + s[1..][..i];
        Some(i + 1)
  }

  /** Index of the last `c` in `s` (where Python's `rsplit(c, 1)` cuts). */
  function LastIndex(s: string, c: char): (r: Option<nat>)
    ensures r.Some? ==> r.value < |s| && s[r.value] == c && c !in s[r.value + 1..]
    ensures r.None? <==> c !in s
    decreases |s|
  {
    if |s| == 0 then None
    else if s[|s| - 1] == c then Some(|s| - 1)
    else
      match LastIndex(s[..|s| - 1], c)
      case None => None
      case Some(i) =>
        assert s[i + 1..] == s[..|s| - 1][i + 1..] + [s[|s| - 1]];
        Some(i)
  }

  /** Python's `sep.join(parts)`. */
  function Join(parts: seq<string>, sep: string): string
    decreases |parts|
  {
    if |parts| == 0 then ""
    else if |parts| == 1 then parts[0]
    else parts[0] + sep + Join(parts[1..], sep)
  }

  /** Python's `s.split(c)`: at least one piece, none holding `c`, joining back to `s`. */
  function Split(s: string, c: char): (parts: seq<string>)
    ensures |parts| >= 1
    ensures forall k | 0 <= k < |parts| :: c !in parts[k]
    ensures Join(parts, [c]) == s
    ensures forall k, x | 0 <= k < |parts| && x in parts[k] :: x in s
    decreases |s|
  {
    match FirstIndex(s, c)
    case None => [s]
    case Some(i) =>
      var rest := Split(s[i + 1..], c);
      var parts := [s[..i]] + rest;
      assert parts[1..] == rest;
      assert s == s[..i] + [c] + s[i + 1..];
      parts
  }

  /** Python's `s.replace(a, b)` for single characters. */
  function Replace(s: string, a: char, b: char): (r: string)
    ensures |r| == |s|
    ensures forall k | 0 <= k < |s| :: r[k] == (if s[k] == a then b else s[k])
  {
    seq(|s|, k requires 0 <= k < |s| => if s[k] == a then b else s[k])
  }

  /** Python's `str.lstrip()` with no argument. */
  function TrimStart(s: string): (r: string)
    ensures |r| <= |s| && r == s[|s| - |r|..]
    ensures |r| > 0 ==> !IsSpace(r[0])
    ensures forall k | 0 <= k < |s| - |r| :: IsSpace(s[k])
    decreases |s|
  {
    if |s| > 0 && IsSpace(s[0]) then TrimStart(s[1..]) else s
  }

  /** Python's `str.rstrip()` with no argument. */
  function TrimEnd(s: string): (r: string)
    ensures |r| <= |s| && r == s[..|r|]
    ensures |r| > 0 ==> !IsSpace(r[|r| - 1])
    ensures forall k | |r| <= k < |s| :: IsSpace(s[k])
    decreases |s|
  {
    if |s| > 0 && IsSpace(s[|s| - 1]) then TrimEnd(s[..|s| - 1]) else s
  }

  /** Python's `str.strip()` with no argument. */
  function Strip(s: string): (r: string)
    ensures |r| > 0 ==> !IsSpace(r[0]) && !IsSpace(r[|r| - 1])
    ensures |r| <= |s|
    ensures (forall k | 0 <= k < |s| :: !IsSpace(s[k])) ==> r == s
  {
    TrimEnd(TrimStart(s))
  }

  /** The concatenation of `ws`, Python's `''.join(ws)`. */
  function Concat(ws: seq<string>): string
  {
    if |ws| == 0 then "" else ws[0] + Concat(ws[1..])
  }

  /** `s` with every `c` removed. */
  function Remove(s: string, c: char): (r: string)
    ensures c !in r
  {
    if |s| == 0 then "" else (if s[0] == c then "" else [s[0]]) + Remove(s[1..], c)
  }

  lemma {:induction false} RemoveAppend(a: string, b: string, c: char)
    ensures Remove(a + b, c) == Remove(a, c) + Remove(b, c)
    decreases |a|
  {
    if |a| > 0 {
      assert (a + b)[1..] == a[1..] + b;
      RemoveAppend(a[1..], b, c);
    } else {
      assert a + b == b;
    }
  }

  /** A text missing the first character of `sub` does not contain `sub`. */
  lemma HeadAbsent(s: string, sub: string)
    requires |sub| > 0 && sub[0] !in s
    ensures !Contains(s, sub)
  {
    forall i: nat
      ensures !OccursAt(s, sub, i)
    {
      if i + |sub| <= |s| {
        assert s[i..i + |sub|][0] == s[i];
      }
    }
  }

  lemma {:induction false} RemoveAbsent(s: string, c: char)
    requires c !in s
    ensures Remove(s, c) == s
    decreases |s|
  {
    if |s| > 0 {
      RemoveAbsent(s[1..], c);
    }
  }

  /** Joining the pieces of a split without the separator removes the separator. */
  lemma {:induction false} ConcatSplit(s: string, c: char)
    ensures Concat(Split(s, c)) == Remove(s, c)
    decreases |s|
  {
    match FirstIndex(s, c)
    case None =>
      RemoveAbsent(s, c);
    case Some(i) =>
      var rest := s[i + 1..];
      ConcatSplit(rest, c);
      var parts := Split(s, c);
      assert parts == [s[..i]] + Split(rest, c);
      assert parts[1..] == Split(rest, c);
      assert Concat(parts) == s[..i] + Remove(rest, c);
      var pre := s[..i];
      assert s == pre + ([c] + rest);
      RemoveAppend(pre, [c] + rest, c);
      RemoveAppend([c], rest, c);
      assert Remove([c], c) == "";
      RemoveAbsent(pre, c);
      assert Remove(s, c) == Remove(pre, c) + Remove([c] + rest, c);
      assert Remove([c] + rest, c) == Remove(rest, c);
  }

  lemma {:induction false} LowerAllAppend(a: string, b: string)
    ensures LowerAll(a + b) == LowerAll(a) + LowerAll(b)
  {
  }

  lemma SplitAbsent(s: string, c: char)
    requires c !in s
    ensures Split(s, c) == [s]
  {
    assert FirstIndex(s, c).None?;
  }

  /** Splitting at the only separator yields the two sides. */
  lemma SplitOnce(a: string, b: string, c: char)
    requires c !in a && c !in b
    ensures Split(a + [c] + b, c) == [a, b]
  {
    var s := a + [c] + b;
    assert s[..|a|] == a;
    assert s[|a| + 1..] == b;
    FirstIndexAt(s, |a|, c);
    SplitAbsent(b, c);
  }

  /** Splitting at the first separator peels off the piece before it. */
  lemma SplitCons(a: string, b: string, c: char)
    requires c !in a
    ensures Split(a + [c] + b, c) == [a] + Split(b, c)
  {
    var s := a + [c] + b;
    assert s[..|a|] == a;
    assert s[|a| + 1..] == b;
    FirstIndexAt(s, |a|, c);
  }

  /** The first occurrence is the one with no occurrence before it. */
  lemma {:induction false} FirstIndexAt(s: string, i: nat, c: char)
    requires i < |s| && s[i] == c && c !in s[..i]
    ensures FirstIndex(s, c) == Some(i)
    decreases i
  {
    if i > 0 {
      assert s[1..][..i - 1] == s[1..i];
      assert s[0] == s[..i][0];
      FirstIndexAt(s[1..], i - 1, c);
    }
  }

  /** Splitting undoes joining, when no piece holds the separator. */
  lemma {:induction false} SplitJoin(parts: seq<string>, c: char)
    requires |parts| >= 1
    requires forall k | 0 <= k < |parts| :: c !in parts[k]
    ensures Split(Join(parts, [c]), c) == parts
    decreases |parts|
  {
    if |parts| == 1 {
      SplitAbsent(parts[0], c);
    } else {
      SplitJoin(parts[1..], c);
      assert Join(parts, [c]) == parts[0] + [c] + Join(parts[1..], [c]);
      SplitCons(parts[0], Join(parts[1..], [c]), c);
      assert parts == [parts[0]] + parts[1..];
    }
  }

  /** Python's `s.count(c)` for a single character. */
  function Count(s: string, c: char): nat
  {
    if |s| == 0 then 0 else (if s[0] == c then 1 else 0) + Count(s[1..], c)
  }

  lemma {:induction false} CountAppend(a: string, b: string, c: char)
    ensures Count(a + b, c) == Count(a, c) + Count(b, c)
    decreases |a|
  {
    if |a| > 0 {
      assert (a + b)[1..] == a[1..] + b;
      CountAppend(a[1..], b, c);
    } else {
      assert a + b == b;
    }
  }

  lemma {:induction false} CountAbsent(s: string, c: char)
    requires c !in s
    ensures Count(s, c) == 0
    decreases |s|
  {
    if |s| > 0 {
      CountAbsent(s[1..], c);
    }
  }

  /** `n` copies of `w`, Python's `[w] * n`. */
  function Repeat(w: string, n: nat): (r: seq<string>)
    ensures |r| == n
    ensures forall k | 0 <= k < n :: r[k] == w
  {
    seq(n, k => w)
  }
}

=== FILE: type_map.dfy ===
/**
 * The type map: constructors grouped under the abstract type they build,
 * and the `Obj` suffix a constructor's Go name takes when it collides with
 * the Go name of such a type.
 */
module TypeMap {

  import opened Maybe
  import opened Strings
  import opened Entries
  import opened GoName
  import opened Grouping

  /**
   * Whether a constructor enters the type map: its result type is present,
   * non-empty and does not start with `Vector`. The `Vector` test looks at
   * the text before it is stripped.
   */
  predicate Eligible(e: Entry) {
    var rt := ResultTypeOr(e, "");
    rt != "" && !StartsWith(rt, "Vector")
  }

  /** The key an eligible constructor is filed under: its stripped result type. */
  function KeyOf(e: Entry): string
  {
    Strip(ResultTypeOr(e, ""))
  }

  /** The key a constructor is filed under, if it is filed at all. */
  function Filed(e: Entry): Option<string>
  {
    if Eligible(e) then Some(KeyOf(e)) else None
  }

  /**
   * The grouping loop of `build_html_docs`: every constructor whose result
   * type is eligible is appended, in declaration order, to the list under
   * its stripped result type; each key is listed once, in the order first met.
   */
  method BuildTypeMap(cs: seq<Entry>) returns (tm: Groups<Entry>)
    ensures tm.order == KeysInOrder(cs, Filed)
    ensures forall k :: k in tm.groups <==> k in tm.order
    ensures forall k | k in tm.groups :: tm.groups[k] == GroupBy(cs, Filed, k)
  {
    tm := GroupAll(cs, Filed);
  }

  /**
   * What the type map holds: its keys, each listed once, are exactly the
   * keys of eligible constructors; every group is non-empty and holds each
   * constructor as often as it is declared when it is filed under that key,
   * and not at all otherwise.
   */
  lemma TypeMapContents(cs: seq<Entry>, k: string)
    ensures forall i, j | 0 <= i < j < |KeysInOrder(cs, Filed)| :: KeysInOrder(cs, Filed)[i] != KeysInOrder(cs, Filed)[j]
    ensures k in KeysInOrder(cs, Filed) <==> exists i | 0 <= i < |cs| :: Eligible(cs[i]) && KeyOf(cs[i]) == k
    ensures k in KeysInOrder(cs, Filed) ==> |GroupBy(cs, Filed, k)| > 0
    ensures forall e :: multiset(GroupBy(cs, Filed, k))[e] == (if Eligible(e) && KeyOf(e) == k then multiset(cs)[e] else 0)
  {
    KeysDistinct(cs, Filed);
    KeysMembers(cs, Filed, k);
    if k in KeysInOrder(cs, Filed) {
      GroupNonEmpty(cs, Filed, k);
    }
    GroupCounts(cs, Filed, k);
    assert forall e :: Filed(e) == Some(k) <==> Eligible(e) && KeyOf(e) == k;
  }

  /** A result type with text before `Vector` is filed, under a key that may start with `Vector`. */
  lemma PaddedVectorFiled(e: Entry, t: string)
    requires e.resultType == Some(" " + t)
    requires |t| > 0 && !IsSpace(t[0]) && !IsSpace(t[|t| - 1])
    ensures Eligible(e) && KeyOf(e) == t
  {
    var rt := " " + t;
    assert rt[0] == ' ' && rt[1..] == t;
    assert TrimStart(rt) == TrimStart(t) == t;
  }

  /** A result type of spaces alone is filed under the empty key. */
  lemma BlankResultFiled(e: Entry)
    requires e.resultType.Some? && e.resultType.value != ""
    requires forall k | 0 <= k < |e.resultType.value| :: IsSpace(e.resultType.value[k])
    ensures Eligible(e) && KeyOf(e) == ""
  {
    var rt := e.resultType.value;
    assert !StartsWith(rt, "Vector") by {
      assert IsSpace(rt[0]);
    }
  }

  /** `go_types_set`: the Go names of the type-map keys. */
  function GoTypes(keys: set<string>): set<string>
  {
    set k | k in keys :: ToGoName(k)
  }

  /** The last dot-separated segment of a name, `name.split('.')[-1]`. */
  function BaseName(name: string): (b: string)
    ensures '.' !in b
  {
    var parts := Split(name, '.');
    parts[|parts| - 1]
  }

  /**
   * The name a constructor or method is shown and addressed under in Go
   * (`generate_gogram_example` and the title of `generate_detail_page`;
   * not the breadcrumb of a dotted name, which tests only the mangled last
   * segment): its mangled
   * name, with `Obj` appended for a constructor whose mangled name is that
   * of a type. When no Go type names are given but a type map is, the
   * source falls back to looking the name's last segment up among the keys.
   */
  function DisplayName(name: string, category: string, keys: set<string>, goTypes: set<string>): string
  {
    var g := ToGoName(name);
    if category != "constructor" then g
    else if goTypes != {} && g in goTypes then g + "Obj"
    else if keys != {} && goTypes == {} then
      (if BaseName(name) in keys then g + "Obj" else g)
    else g
  }

  /** The search index's rule (constructors only): `Obj` iff the mangled name is a type's. */
  function SearchDisplayName(name: string, goTypes: set<string>): string
  {
    var g := ToGoName(name);
    if g in goTypes then g + "Obj" else g
  }

  /**
   * With the Go type names computed from the keys, as the generator always
   * does, a constructor is suffixed exactly when its mangled name is a
   * type's, the fallback is never taken, and the pages agree with the search
   * index.
   */
  lemma ObjSuffix(name: string, keys: set<string>)
    ensures DisplayName(name, "constructor", keys, GoTypes(keys)) ==
            (if ToGoName(name) in GoTypes(keys) then ToGoName(name) + "Obj" else ToGoName(name))
    ensures DisplayName(name, "constructor", keys, GoTypes(keys)) == SearchDisplayName(name, GoTypes(keys))
  {
    if keys != {} {
      var k :| k in keys;
      assert ToGoName(k) in GoTypes(keys);
    }
  }

  /** Methods are never suffixed. */
  lemma MethodsUnsuffixed(name: string, keys: set<string>, goTypes: set<string>)
    ensures DisplayName(name, "method", keys, goTypes) == ToGoName(name)
  {
  }

  /**
   * The fallback disagrees with the main rule: when the only key is an
   * undotted `item`, the constructor `ns.item` is suffixed through its last
   * segment by the fallback, though its mangled name is longer than
   * `item`'s, so that the main rule (see `ObjSuffix`) leaves it alone.
   */
  lemma FallbackByBaseName(ns: string, item: string, keys: set<string>)
    requires ns != "" && forall k | 0 <= k < |ns| :: IsAlnum(ns[k])
    requires '.' !in item && '_' !in item && keys == {item}
    ensures DisplayName(ns + "." + item, "constructor", keys, {}) == ToGoName(ns + "." + item) + "Obj"
    ensures ToGoName(ns + "." + item) !in GoTypes(keys)
  {
    assert '.' !in ns && '_' !in ns;
    BaseNameDotted(ns, item);
    MainRuleMisses(ns, item, keys);
  }

  lemma MainRuleMisses(ns: string, item: string, keys: set<string>)
    requires ns != "" && forall k | 0 <= k < |ns| :: IsAlnum(ns[k])
    requires '.' !in item && '_' !in item && keys == {item}
    ensures ToGoName(ns + "." + item) !in GoTypes(keys)
  {
    NamespaceLengthens(ns, item);
    assert GoTypes(keys) == {ToGoName(item)};
  }

  lemma BaseNameDotted(ns: string, item: string)
    requires '.' !in ns && '.' !in item
    ensures BaseName(ns + "." + item) == item
  {
    assert ns + "." + item == ns + ['.'] + item;
    SplitCons(ns, item, '.');
    SplitAbsent(item, '.');
  }

  /** A non-empty alphanumeric namespace adds to the mangled name. */
  lemma NamespaceLengthens(ns: string, item: string)
    requires ns != "" && forall k | 0 <= k < |ns| :: IsAlnum(ns[k])
    requires '.' !in item && '_' !in item
    ensures ToGoName(ns + "." + item) != ToGoName(item)
  {
    assert '.' !in ns && '_' !in ns;
    NamespacedName(ns, item);
    GoNameSpellsName(ns);
    RemoveAbsent(ns, '.');
    RemoveAbsent(ns, '_');
    assert |ToGoName(ns + "." + item)| > |ToGoName(item)|;
  }
}

=== FILE: type_syntax.dfy ===
/**
 * The two pieces of TL type syntax the documentation generator looks inside:
 * the conditional-field marker `flags.N?` in front of a type, and the
 * `Vector<...>` wrapper. Both are recognised in the source by regular
 * expressions, written out here as scanners with their regex meaning stated.
 */
module TypeSyntax {

  import opened Maybe
  import opened Strings

  /** `p` is a whole `flags.N?` marker: `flags.`, one or more digits, `?`. */
  predicate IsFlagsMarker(p: string) {
    && |p| >= 8
    && StartsWith(p, "flags.")
    && p[|p| - 1] == '?'
    && forall k | 6 <= k < |p| - 1 :: IsDigit(p[k])
  }

  /** The anchored pattern `^flags\.\d+\?` matches the first `m` characters of `t`. */
  predicate MarkerAt(t: string, m: nat) {
    m <= |t| && IsFlagsMarker(t[..m])
  }

  /**
   * Length of the leading `flags.N?` marker of `t`, 0 when there is none.
   * The anchored pattern can match at most one prefix, and this is it.
   */
  function FlagsPrefixLen(t: string): (n: nat)
    ensures n <= |t|
    ensures n > 0 ==> MarkerAt(t, n)
    ensures forall m: nat | MarkerAt(t, m) :: m == n
  {
    if StartsWith(t, "flags.") then
      var d := Run(t, 6, IsDigit);
      MarkerLength(t, d);
      if d > 0 && 6 + d < |t| && t[6 + d] == '?' then 7 + d else 0
    else
      0
  }

  /** Any marker ends at the first non-digit after `flags.`. */
  lemma MarkerLength(t: string, d: nat)
    requires StartsWith(t, "flags.") && d == Run(t, 6, IsDigit)
    ensures forall m: nat | MarkerAt(t, m) :: m == 7 + d && d > 0 && t[6 + d] == '?'
  {
    forall m: nat | MarkerAt(t, m)
      ensures m == 7 + d && d > 0 && t[6 + d] == '?'
    {
      var p := t[..m];
      assert forall k | 6 <= k < m - 1 :: IsDigit(t[k]) by {
        forall k | 6 <= k < m - 1 ensures IsDigit(t[k]) {
          assert p[k] == t[k];
        }
      }
      assert t[m - 1] == p[m - 1];
      assert !IsDigit(t[m - 1]);
      RunExact(t, 6, IsDigit, m - 7);
    }
  }

  /** The type with its `flags.N?` marker removed, as `re.sub(r'^flags\.\d+\?', '', t)`. */
  function StripFlags(t: string): (r: string)
    ensures r == t[FlagsPrefixLen(t)..]
  {
    t[FlagsPrefixLen(t)..]
  }

  /** A type written `flags.N?T` loses exactly its marker: `T` is left. */
  lemma StripMarker(digits: string, base: string)
    requires |digits| > 0 && forall k | 0 <= k < |digits| :: IsDigit(digits[k])
    ensures StripFlags("flags." + digits + "?" + base) == base
    ensures FlagsPrefixLen("flags." + digits + "?" + base) == |digits| + 7
  {
    var t := "flags." + digits + "?" + base;
    var n := |digits| + 7;
    assert t[..n] == "flags." + digits + "?";
    assert StartsWith(t[..n], "flags.");
    assert forall k | 6 <= k < n - 1 :: t[..n][k] == digits[k - 6];
    assert MarkerAt(t, n);
    assert t[n..] == base;
  }

  /** The generator's test for a conditional field: `'flags.' in t and '?' in t`. */
  predicate IsOptionalType(t: string) {
    Contains(t, "flags.") && '?' in t
  }

  /** Every type carrying a marker counts as optional. */
  lemma MarkedIsOptional(t: string)
    requires FlagsPrefixLen(t) > 0
    ensures IsOptionalType(t)
  {
    var n := FlagsPrefixLen(t);
    assert OccursAt(t, "flags.", 0) by {
      assert t[..n][..6] == t[..6];
    }
    assert t[n - 1] == t[..n][n - 1];
  }

  /**
   * `re.match(r'Vector<(.+)>', s)` succeeds with the closing `>` at `j`:
   * `s` starts with `Vector<`, the group `s[7..j]` is non-empty and, since
   * `.` does not match a newline, holds none.
   */
  predicate VectorMatchAt(s: string, j: nat) {
    && 8 <= j < |s|
    && StartsWith(s, "Vector<")
    && s[j] == '>'
    && forall k | 7 <= k < j :: s[k] != '\n'
  }

  /** The last `>` in `s[lo..hi]`, if any. */
  function LastCloseIn(s: string, lo: nat, hi: nat): (r: Option<nat>)
    requires lo <= hi <= |s|
    ensures r.Some? ==> lo <= r.value < hi && s[r.value] == '>'
    ensures r.Some? ==> forall j | r.value < j < hi :: s[j] != '>'
    ensures r.None? ==> forall j | lo <= j < hi :: s[j] != '>'
    decreases hi - lo
  {
    if lo == hi then None
    else if s[hi - 1] == '>' then Some(hi - 1)
    else LastCloseIn(s, lo, hi - 1)
  }

  /**
   * Where the greedy group ends: the match that `re.match` reports is the
   * one whose `>` lies furthest right, and there is none exactly when no
   * position closes a match.
   */
  function VectorClose(s: string): (r: Option<nat>)
    ensures r.Some? ==> VectorMatchAt(s, r.value)
    ensures r.Some? ==> forall j: nat | VectorMatchAt(s, j) :: j <= r.value
    ensures r.None? ==> forall j: nat :: !VectorMatchAt(s, j)
  {
    if !StartsWith(s, "Vector<") || |s| < 8 then None
    else
      var e := 7 + Run(s, 7, c => c != '\n');
      LineBound(s, e);
      if e < 8 then None else LastCloseIn(s, 8, e)
  }

  /** A match closes before the first newline after `Vector<`, and anywhere before it. */
  lemma LineBound(s: string, e: nat)
    requires StartsWith(s, "Vector<") && e == 7 + Run(s, 7, c => c != '\n')
    ensures forall j: nat :: VectorMatchAt(s, j) <==> 8 <= j < e && s[j] == '>'
  {
  }

  /** The group of `Vector<(.+)>`: the element type of a vector type. */
  function VectorInner(s: string): (r: Option<string>)
    ensures r.Some? <==> exists j: nat :: VectorMatchAt(s, j)
    ensures r.Some? ==> |r.value| + 8 <= |s|
    ensures r.Some? ==> "Vector<" + r.value + ">" == s[..|r.value| + 8]
    ensures r.Some? ==> forall j: nat | VectorMatchAt(s, j) :: j - 7 <= |r.value|
  {
    match VectorClose(s)
    case None => None
    case Some(j) =>
      assert s[..j + 1] == s[..7] + s[7..j] + [s[j]];
      Some(s[7..j])
  }
}
